=== FILE: README.md ===
# plotly.py build helper (`commands.py`) in Dafny

This project models the build helper that keeps plotly.py in step with
plotly.js. The helper has three commands:

- `codegen` regenerates the Python classes.
- `updateplotlyjs` moves to the released plotly.js declared in
  `js/package.json`.
- `updateplotlyjsdev` moves to a development build. That build comes either
  from CircleCI or from a local plotly.js checkout.

Each command is a pure function. It takes an environment `Env`: the parsed
manifest, CircleCI's answers, the URLs that answer 200, the files present,
the clock reading, npm's availability and `SKIP_NPM`. It returns a `Run`,
which is the ordered trace of effects performed plus how the run ended:
completed, exited with a status, or raised an error. A run that raises
keeps the effects it already performed, because the helper rolls nothing
back.

The modules follow the helper's parts:

- `Seqs`: filter-then-take-first, the selection rule of every lookup.
- `Strings`:
  - `str.replace` of one character;
  - slicing;
  - `"_".join`, together with its inverse split;
  - POSIX `os.path.join`.
- `Json`: an ordered JSON object and `d[k] = v`.
- `Trace`: the fixed target files, the error kinds, effects, runs and their
  sequencing.
- `Manifest`: reading and rewriting `dependencies["plotly.js"]`.
- `Marker`: the generated `_plotlyjs_version.py` and reading it back.
- `CircleCi`: the build and artifact lookups, and the local-checkout paths.
- `Cli`: the `--devrepo`, `--devbranch` and `--local` lookups in `sys.argv`.
- `Version`: the development version string.
- `Install`: `install_js_deps`.
- `Commands`: the commands and `main`.
- `CommandProperties`: what the commands promise as wholes.

Behaviour of the code worth knowing:

- A single argument that names no command does nothing, and the program
  exits with status 0.
- The released update writes the version marker right after downloading
  the bundle, before it fetches the schema. A failed schema download
  therefore leaves the new bundle and marker behind.
- Every `^` in the declared version is removed, wherever it occurs.
- When npm is missing, this is only logged. The install then fails only if
  the widget bundle is absent.
- `main` accepts exactly two arguments, the program name and the command.
  The `--devrepo`, `--devbranch` and `--local` flags can therefore never
  reach the development update through `main`. Any extra argument gets the
  usage line and exit status 1. See `UsageOnWrongArgumentCount`,
  `DevFromMainUsesDefaults` and `DevFromMainLocalQuirk`.

## Model

| member | source | states |
|---|---|---|
| Strings.StripAll | commands.py:32 | the result holds no `^`, is no longer than the input, and is the input unchanged when it held none |
| Strings.StripAllContents | commands.py:32 | exactly the characters other than `^` are kept, with their multiplicities |
| Strings.StripAllConcat | commands.py:32 | removal distributes over concatenation, so the kept characters stay in order |
| Strings.StripAllIdempotent | commands.py:32 | removing the carets from an already stripped version changes nothing |
| Strings.Prefix | commands.py:291 | `s[:n]` has length min(n, \|s\|) and is a prefix of `s` |
| Strings.SplitJoin | commands.py:291 | splitting an underscore join at the separator gives the parts back when no part holds the separator |
| Strings.PathJoinEndsWith | commands.py:176-178 | `os.path.join(a, b)` always ends with `b` |
| Strings.PathJoinPlain | commands.py:176-178 | for a directory without a trailing slash and a relative name, the join is `a + "/" + b` |
| Json.Lookup | commands.py:31 | a lookup finds nothing exactly when the key is absent |
| Json.Store | commands.py:282-284 | assignment keeps every existing key in place, changes no other member, and appends a new key at the end |
| Json.StoreLookup | commands.py:282-284 | after `d[k] = v`, `d[k]` is `v` |
| Json.StoreOthers | commands.py:282-284 | after `d[k] = v`, every other key reads as before |
| Json.StoreKeys | commands.py:282-284 | the key order is unchanged, with a new key last |
| Json.StoreSameValue | commands.py:282-284 | storing the value already present changes nothing |
| Json.HasKeyAt | commands.py:31 | a key is present exactly when some member carries it |
| Json.StoreUnique | commands.py:282-284 | assignment never creates a duplicate key |
| Manifest.DeclaredDependency | commands.py:31 | reading `dependencies["plotly.js"]` succeeds exactly when `dependencies` is an object holding that key, gives the value stored there, and raises a KeyError for `plotly.js` when `dependencies` lacks the key |
| Manifest.DependencyMembers | commands.py:282 | reading `dependencies` succeeds exactly when the manifest is an object whose `dependencies` entry is an object |
| Manifest.DeclaredVersion | commands.py:27-34 | the declared version succeeds exactly for a string `dependencies["plotly.js"]`; it is that string with every `^` removed and holds no `^` |
| Manifest.WithDependency | commands.py:276-284 | the rewrite fails exactly where reading `dependencies` fails, with the same error |
| Manifest.ReadAfterWrite | commands.py:282-284 | after the rewrite the manifest declares the new archive, and the released flow would read it with carets removed |
| Manifest.OnlyPlotlyJsChanges | commands.py:281-286 | every other top-level entry and every other dependency keeps its value, and the top-level key order is kept |
| Manifest.DependencyOrderKept | commands.py:282-284 | the dependency keys keep their order, and `plotly.js` is appended only when it was absent |
| Manifest.RewriteSameIsNoOp | commands.py:282-284 | rewriting to the value already declared leaves the manifest unchanged |
| Manifest.RewriteIdempotent | commands.py:282-284 | rewriting twice with the same archive is rewriting once |
| Manifest.RewriteKeepsUniqueKeys | commands.py:279-286 | a manifest without duplicate keys has none after the rewrite |
| Marker.VersionOf | commands.py:133-144 | whatever is read back from a marker text is the version that regenerates exactly that text |
| Marker.VersionRoundTrip | commands.py:133-144 | the marker written for a version reads back as that version, with no residue from an earlier one |
| Marker.TextInjective | commands.py:133-144 | different versions give different marker files |
| Marker.Lines | commands.py:137-141 | a version without a line break gives exactly the notice line, the generated-by line and one assignment, then the final newline |
| Commands.Main | commands.py:302-312 | dispatch on the argument list; its behaviour is stated by `UsageOnWrongArgumentCount`, `SingleArgumentDispatch`, `ReleasedDispatch`, `ReleasedUpdate`, `ReleasedBundleFailure`, `ManifestUnreadable`, `DevFromMainUsesDefaults`, `DevFromMainLocalQuirk` and `MainWritesWellFormed` |
| Commands.UpdatePlotlyJs | commands.py:228-231 | bundle and marker, then schema, then code generation; stated by `ReleasedUpdate`, `ReleasedUpdateSchemaFailure` and `ReleasedUpdateLeavesManifest` |
| Commands.UpdateBundle | commands.py:215-224 | download the bundle, then write the marker; stated by `BundleSteps` |
| Commands.OverwriteBundle | commands.py:122-130 | print the URL, then download, or raise on a status other than 200 after the print; stated by `BundleSteps`, `ReleasedBundleFailure` and `CiFetchFailure` |
| Commands.UpdateSchemaBundleFromMaster | commands.py:235-293 | parse the flags, take the local checkout when `--local` is given and CircleCI otherwise; stated for any argument list by `LocalFlagChoosesSource`, and by `DevArgsFailure`, `DevFromMainUsesDefaults`, `DevFromMainLocalQuirk` and `MainWritesWellFormed` |
| Commands.OverwriteSchema | commands.py:107-114 | download the schema, or raise on a status other than 200 with nothing written; stated by `ReleasedUpdate`, `ReleasedUpdateSchemaFailure` and `CiFetchFailure` |
| Commands.CopyLocal | commands.py:102-104 | copy a local file over a target, or raise when the source is missing; models both `overwrite_schema_local` and `overwrite_bundle_local` (commands.py:117-119); stated by `LocalCopyFailure` and `LocalUpdate` |
| Commands.UpdatePlotlyJsDev | commands.py:297-299 | the development update, then code generation only when it completed; stated by `DevArgsFailure` and `DevFromMainUsesDefaults` |
| Commands.RunCodegen | commands.py:93-99 | one code-generation step; stated by `SingleArgumentDispatch` and `ReleasedUpdate` |
| Commands.FromCi | commands.py:252-263 | the CircleCI branch; stated by `CiUpdate`, `CiLookupFailureWritesNothing`, `CiDownloadFailure`, `CiFetchFailure`, `CiNeverCopies` and `CiWrites` |
| Commands.FromLocal | commands.py:264-274 | the local-checkout branch; stated by `LocalUpdate`, `LocalCopyFailure`, `LocalNeverRemote` and `LocalWrites` |
| Commands.WriteMetadata | commands.py:276-293 | rewrite the manifest, write the marker, install; stated by `MetadataFailure`, `MetadataWrites` and `MetadataLocalOnly` |
| Marker.Text | commands.py:133-144 | the marker file's contents; stated by `VersionRoundTrip`, `TextInjective` and `Lines` |
| Version.DevVersion | commands.py:288-292 | the development version; stated by `DevVersionShape`, `DevVersionSplits` and `LocalVersion` |
| CircleCi.BundleSchemaUrls | commands.py:182-202 | the three artifact URLs; stated by `MissingArtifactFails`, `MissingUrlFails` and `UrlsFromFirstMatches` |
| CircleCi.BundleSchemaLocal | commands.py:175-179 | the three local paths; stated by `LocalPathsEndWith` and `LocalPathsUnderDirectory` |
| CircleCi.IsPublishBuild | commands.py:163-168 | a qualifying build has a `workflows` object and status `success` |
| CircleCi.ExtractInfo | commands.py:172 | provenance extraction succeeds exactly when `vcs_revision`, `build_num` and `committer_date` are all present, keeps those three fields, and otherwise raises a missing-key error |
| CircleCi.LatestPublishBuild | commands.py:163-172 | there is no publish build exactly when no entry is a successful `publish-dist` build |
| CircleCi.ChoosesFirstPublishBuild | commands.py:163-172 | the build chosen is the first qualifying entry in listing order |
| CircleCi.NoWorkflowsNeverQualifies | commands.py:166 | an entry without `workflows` never qualifies |
| CircleCi.SkipsNonPublishPrefix | commands.py:163-169 | entries that do not qualify, put before the list, do not change the choice |
| CircleCi.FirstWithPath | commands.py:191-200 | an artifact is found exactly when one carries the path; a found artifact carries it; otherwise the error names the path |
| CircleCi.UrlOf | commands.py:202 | reading `url` succeeds exactly when it is present and otherwise raises a missing-key error |
| CircleCi.MissingArtifactFails | commands.py:190-200 | a missing required path makes the lookup fail with a missing-artifact error naming the first missing path in archive, bundle, schema order |
| CircleCi.MissingUrlFails | commands.py:202 | with every path found, the lookup succeeds exactly when the first artifact for each path has a `url`, and otherwise raises a KeyError for `url` |
| CircleCi.UrlsFromFirstMatches | commands.py:190-202 | with all three paths present, each URL is that of the first artifact with the path |
| CircleCi.LocalPathsEndWith | commands.py:175-179 | each local path ends with the path the same artifact has in a CircleCI build |
| CircleCi.LocalPathsUnderDirectory | commands.py:175-179 | for an ordinary directory, the paths are the directory, `/`, and the fixed relative paths |
| Cli.FlagArg | commands.py:237-250 | an absent flag gives nothing; otherwise the result is the argument after the flag's first occurrence, or an index error when the flag is last |
| Cli.ParseDevArgs | commands.py:237-250 | parsing succeeds exactly when all three lookups do; each option is the value after its flag, or the default when the flag is absent |
| Cli.NoFlagsGiveDefaults | commands.py:237-250 | without flags the options are `plotly/plotly.js`, `master` and no local path |
| Cli.BranchOnly | commands.py:242-245 | giving only `--devbranch b` changes only the branch |
| Version.DevVersionShape | commands.py:289-291 | the version is repo, branch, date[:10] and rev[:8] joined by `_`, and its length follows from theirs |
| Version.DevVersionSplits | commands.py:289-291 | when no component holds `_`, the version splits back into the four components |
| Version.LocalVersion | commands.py:268-270 | a local build is named `<local>__<now[:10]>_local` |
| Install.InstallJsDeps | commands.py:38-89 | npm is probed first; a non-empty `SKIP_NPM` returns right after the probe; otherwise the run completes exactly when the widget bundle exists and else raises `Missing file: <path>`; `node_modules` is touched only after an npm build, and whenever npm ran, `npm run build` is the last step but one and the touch the last |
| Install.InstallStepsOnly | commands.py:43-89 | installing only probes npm, runs npm and touches `node_modules` |
| Install.InstallCommands | commands.py:62-84 | the npm commands are none when skipped or when npm is missing; otherwise `install`, then `install <archive>` for a local build, then `run build` |
| CommandProperties.UsageOnWrongArgumentCount | commands.py:302-305 | any argument count other than two prints the usage line to standard error, exits with status 1 and writes nothing, and this is the only way `main` exits with a status |
| CommandProperties.SingleArgumentDispatch | commands.py:302-312 | `codegen` runs only the code generator, and an unrecognised command does nothing |
| CommandProperties.ReleasedDispatch | commands.py:310-312 | `updateplotlyjs` prints the declared version and then updates to it |
| CommandProperties.BundleSteps | commands.py:214-224 | the released bundle step prints the URL, downloads the bundle, then writes the marker |
| CommandProperties.ReleasedUpdate | commands.py:206-231 | the released update prints the version without carets, then fetches the bundle, writes the marker, fetches the schema and regenerates, touching exactly those three files |
| CommandProperties.ReleasedUpdateSchemaFailure | commands.py:227-231 | when the schema download fails, the new bundle and marker stay written and code generation never runs |
| CommandProperties.ReleasedUpdateLeavesManifest | commands.py:206-231 | the released update never writes the manifest |
| CommandProperties.DevFromMainUsesDefaults | commands.py:302-309 | a development update started by `main` uses the default repo and branch from CircleCI |
| CommandProperties.DevFromMainLocalQuirk | commands.py:247-248 | a program name equal to `--local` makes the command name the local directory |
| CommandProperties.LocalUpdate | commands.py:264-293 | a local update copies bundle and schema, points the manifest at the checkout's archive, writes the marker `<local>__<now[:10]>_local`, then installs with that archive |
| CommandProperties.CiUpdate | commands.py:252-293 | a CI update queries builds and then artifacts, fetches bundle and schema, points the manifest at the archive URL, writes the marker `repo_branch_date[:10]_rev[:8]`, then installs |
| CommandProperties.CiFetchTrace | commands.py:259-293 | once the artifacts are found, the fetches, the two rewrites and the install follow in that order |
| CommandProperties.CiLookupFailureWritesNothing | commands.py:252-257 | when no build or no artifact set is found, the run fails before writing any file |
| CommandProperties.ReleasedBundleFailure | commands.py:122-130 | when the released bundle answers other than 200, the version and the URL are printed and the run raises with nothing written |
| CommandProperties.ManifestUnreadable | commands.py:27-34 | when the declared version cannot be read, the released update raises that error before printing or writing anything |
| CommandProperties.DevArgsFailure | commands.py:237-250 | a flag without a value makes the development update raise that error before any effect |
| CommandProperties.LocalCopyFailure | commands.py:264-274 | a missing local bundle raises before any copy; a missing local schema raises after the bundle copy |
| CommandProperties.MetadataFailure | commands.py:276-286 | a manifest whose `dependencies` cannot be read raises before the manifest or the marker is written and before installing |
| CommandProperties.CiFetchFailure | commands.py:259-263 | a failed bundle download raises after printing its URL; a failed schema download raises after the bundle is written |
| CommandProperties.CiDownloadFailure | commands.py:252-263 | in the whole CI flow, a failed download raises after the two queries and writes at most the bundle |
| CommandProperties.LocalFlagChoosesSource | commands.py:247-274 | for any argument list whose flags parse, `--local` present means the local checkout it names, which never reaches the network; absent means CircleCI's build for the given or default repo and branch, which copies nothing |
| CommandProperties.SourcesNeverMix | commands.py:252-274 | a local update never contacts CircleCI or downloads, and a CI update copies nothing |
| CommandProperties.InstallLocalOnly | commands.py:38-89 | installing neither downloads nor copies, and writes none of the managed files |
| CommandProperties.MainWritesWellFormed | commands.py:276-292 | every marker `main` writes has the generated shape, and every manifest it writes is the one read with only `dependencies["plotly.js"]` replaced |
| CommandProperties.MetadataWrites | commands.py:276-293 | the same holds for the metadata step alone |
| CommandProperties.CiWrites | commands.py:252-293 | the same holds for the CI update |
| CommandProperties.LocalWrites | commands.py:264-293 | the same holds for the local update |

## Left out

- HTTP is reduced to two things: whether a URL answers 200, and the effect
  recorded. `requests.get` raising, response bodies, and the exact CircleCI
  URLs are not modelled.
- The GET request itself is not recorded. In `overwrite_bundle` the request
  is made before the URL is printed. The model records only the print and,
  for a 200 answer, a `Download`, which stands for writing the body.
- JSON parsing and `json.dump(..., indent=2)` are left out. The manifest is
  the parsed document. Numbers are integers, and floats are not modelled.
- A missing or unparseable `js/package.json`, and I/O errors when writing
  any file, are not modelled.
- CircleCI answers are typed records. A key is present or absent. A listing
  that is not a list of objects is not modelled, so there are no
  `AttributeError` paths. `committer_date` is taken to be a string, so
  `str()` of another JSON type is not modelled.
- The marker file is modelled as text. Whether it is valid Python for a
  version holding a `"` is not modelled.
- `Marker.VersionOf` is only a reader used to state the round trip. The
  helper never reads the marker back.
- `time.time()` is the `now` parameter, already formatted as `str` would
  print it.
- Subprocesses:
  - `check_call` failing with a non-zero npm status is not modelled;
  - the npm executable's name on Windows is not modelled;
  - the `PATH` passed to npm is not modelled;
  - `log` output is not modelled.
- `run_codegen` is one `Codegen` effect. Its Python-version guard and the
  code generator itself are not part of this model.
- The missing-artifact `IndexError` carries only Python's generic
  `list index out of range` message, which does not name the path. The
  model's `MissingArtifact` error also records which path was missing.
- `plotly_js_version` is read twice by `main`. The model reads it once,
  because nothing writes the manifest in between.

=== FILE: circleci.dfy ===
/** Choosing the upstream build and its artifacts from CircleCI's answers
    (`get_latest_publish_build_info`, `get_bundle_schema_urls`), and the local
    counterpart (`get_bundle_schema_local`). Records are the decoded JSON
    objects; an `Option` field is `None` when the key is absent. */
module CircleCi {
  import opened Wrappers
  import opened Seqs
  import opened Strings
  import opened Trace

  datatype Workflow = Workflow(jobName: Option<string>)

  /** One entry of the build listing for a branch. */
  datatype BuildEntry = BuildEntry(
    workflows: Option<Workflow>,
    status: Option<string>,
    vcsRevision: Option<string>,
    buildNum: Option<int>,
    committerDate: Option<string>)

  /** The provenance kept of the chosen build: these three fields and no
      others. */
  datatype BuildInfo = BuildInfo(vcsRevision: string, buildNum: int, committerDate: string)

  /** One entry of a build's artifact listing. */
  datatype Artifact = Artifact(path: Option<string>, url: Option<string>)

  /** The three locations an update draws on, in this order. */
  datatype ArtifactSet = ArtifactSet(archive: string, bundle: string, schema: string)

  const PublishJob := "publish-dist"
  const SuccessStatus := "success"
  const ArchivePath := "plotly.js.tgz"
  const BundlePath := "dist/plotly.min.js"
  const SchemaPath := "dist/plot-schema.json"

  /** A build qualifies when its workflow's job is the publishing job and its
      status is success; a missing key counts as no match. */
  predicate IsPublishBuild(j: BuildEntry): (r: bool)
    ensures r ==> j.workflows.Some? && j.status == Some(SuccessStatus)
  {
    j.workflows.GetOr(Workflow(None)).jobName == Some(PublishJob)
    && j.status == Some(SuccessStatus)
  }

  /** Keeps the revision, build number and commit date of a build; a missing
      key is a KeyError, reported for the first one missing. */
  function ExtractInfo(b: BuildEntry): (r: Result<BuildInfo, Error>)
    ensures r.Success? <==> b.vcsRevision.Some? && b.buildNum.Some? && b.committerDate.Some?
    ensures r.Success? ==> r.value == BuildInfo(b.vcsRevision.value, b.buildNum.value, b.committerDate.value)
    ensures r.Failure? ==> r.error.MissingKey?
  {
    if b.vcsRevision.None? then Failure(MissingKey("vcs_revision"))
    else if b.buildNum.None? then Failure(MissingKey("build_num"))
    else if b.committerDate.None? then Failure(MissingKey("committer_date"))
    else Success(BuildInfo(b.vcsRevision.value, b.buildNum.value, b.committerDate.value))
  }

  /** The first successful publish-dist build in listing order, reduced to
      its provenance; `builds[0]` on an empty list is the IndexError. */
  function LatestPublishBuild(jobs: seq<BuildEntry>): (r: Result<BuildInfo, Error>)
    ensures r.Failure? && r.error == NoPublishBuild <==> forall i :: 0 <= i < |jobs| ==> !IsPublishBuild(jobs[i])
  {
    var builds := Filter(jobs, IsPublishBuild);
    FilterHeadIsFirstMatch(jobs, IsPublishBuild);
    if |builds| == 0 then Failure(NoPublishBuild) else ExtractInfo(builds[0])
  }

  /** The build chosen is the first entry that qualifies: entries before it
      are skipped whatever else they hold. */
  lemma {:induction false} ChoosesFirstPublishBuild(jobs: seq<BuildEntry>, i: nat)
    requires i < |jobs| && IsPublishBuild(jobs[i])
    requires forall j :: 0 <= j < i ==> !IsPublishBuild(jobs[j])
    ensures LatestPublishBuild(jobs) == ExtractInfo(jobs[i])
  {
    FilterHeadAt(jobs, IsPublishBuild, i);
  }

  /** An entry without a `workflows` object never qualifies, whatever its
      status. */
  lemma {:induction false} NoWorkflowsNeverQualifies(j: BuildEntry)
    requires j.workflows.None?
    ensures !IsPublishBuild(j)
  {
  }

  /** Selection is stable under entries that do not qualify: prepending
      failed, unfinished or non-publish builds does not change the choice. */
  lemma {:induction false} SkipsNonPublishPrefix(skipped: seq<BuildEntry>, jobs: seq<BuildEntry>)
    requires forall j :: 0 <= j < |skipped| ==> !IsPublishBuild(skipped[j])
    ensures LatestPublishBuild(skipped + jobs) == LatestPublishBuild(jobs)
  {
    var all := skipped + jobs;
    match FirstIndex(jobs, IsPublishBuild)
    case None =>
      assert forall j :: 0 <= j < |all| ==> !IsPublishBuild(all[j]) by {
        forall j | 0 <= j < |all| ensures !IsPublishBuild(all[j]) {
          if j >= |skipped| { assert all[j] == jobs[j - |skipped|]; }
        }
      }
      assert LatestPublishBuild(all).Failure? && LatestPublishBuild(all).error == NoPublishBuild;
    case Some(k) =>
      assert all[|skipped| + k] == jobs[k];
      forall j | 0 <= j < |skipped| + k ensures !IsPublishBuild(all[j]) {
        if j >= |skipped| { assert all[j] == jobs[j - |skipped|]; }
      }
      ChoosesFirstPublishBuild(all, |skipped| + k);
      ChoosesFirstPublishBuild(jobs, k);
  }

  function HasPath(p: string): Artifact -> bool {
    (a: Artifact) => a.path == Some(p)
  }

  /** The first artifact whose path is `p`; an IndexError when there is
      none. */
  function FirstWithPath(artifacts: seq<Artifact>, p: string): (r: Result<Artifact, Error>)
    ensures r.Success? <==> exists i :: 0 <= i < |artifacts| && artifacts[i].path == Some(p)
    ensures r.Failure? ==> r.error == MissingArtifact(p)
    ensures r.Success? ==> r.value.path == Some(p)
  {
    var found := Filter(artifacts, HasPath(p));
    FilterHeadIsFirstMatch(artifacts, HasPath(p));
    if |found| == 0 then Failure(MissingArtifact(p)) else Success(found[0])
  }

  /** `artifact["url"]`. */
  function UrlOf(a: Artifact): (r: Result<string, Error>)
    ensures r.Success? <==> a.url.Some?
    ensures r.Success? ==> r.value == a.url.value
    ensures r.Failure? ==> r.error == MissingKey("url")
  {
    match a.url
    case None => Failure(MissingKey("url"))
    case Some(u) => Success(u)
  }

  /** `get_bundle_schema_urls`: the archive, bundle and schema URLs, each
      from the first artifact with the expected path. The three lookups run
      in that order, and the URLs are read only once all three are found. */
  function BundleSchemaUrls(artifacts: seq<Artifact>): Result<ArtifactSet, Error> {
    var archive :- FirstWithPath(artifacts, ArchivePath);
    var bundle :- FirstWithPath(artifacts, BundlePath);
    var schema :- FirstWithPath(artifacts, SchemaPath);
    var archiveUrl :- UrlOf(archive);
    var bundleUrl :- UrlOf(bundle);
    var schemaUrl :- UrlOf(schema);
    Success(ArtifactSet(archiveUrl, bundleUrl, schemaUrl))
  }

  /** A required path that no artifact carries makes the lookup fail, and
      the failure names the first such path in archive, bundle, schema
      order. */
  lemma {:induction false} MissingArtifactFails(artifacts: seq<Artifact>, p: string)
    requires p == ArchivePath || p == BundlePath || p == SchemaPath
    requires forall i :: 0 <= i < |artifacts| ==> artifacts[i].path != Some(p)
    ensures BundleSchemaUrls(artifacts).Failure?
    ensures p == ArchivePath ==> BundleSchemaUrls(artifacts).error == MissingArtifact(ArchivePath)
    ensures p == BundlePath && FirstWithPath(artifacts, ArchivePath).Success? ==>
      BundleSchemaUrls(artifacts).error == MissingArtifact(BundlePath)
    ensures p == SchemaPath && FirstWithPath(artifacts, ArchivePath).Success?
            && FirstWithPath(artifacts, BundlePath).Success? ==>
      BundleSchemaUrls(artifacts).error == MissingArtifact(SchemaPath)
    ensures BundleSchemaUrls(artifacts).error.MissingArtifact?
  {
    assert FirstWithPath(artifacts, p).Failure?;
  }

  /** Every required path is carried by some artifact. */
  predicate AllPathsFound(artifacts: seq<Artifact>) {
    && FirstWithPath(artifacts, ArchivePath).Success?
    && FirstWithPath(artifacts, BundlePath).Success?
    && FirstWithPath(artifacts, SchemaPath).Success?
  }

  /** When every path is found but the first artifact carrying one of them
      has no `url`, the lookup raises a KeyError for `url`; the archive is
      read first, then the bundle, then the schema. */
  lemma {:induction false} MissingUrlFails(artifacts: seq<Artifact>)
    ensures AllPathsFound(artifacts) && FirstWithPath(artifacts, ArchivePath).value.url.None? ==>
      BundleSchemaUrls(artifacts) == Failure(MissingKey("url"))
    ensures AllPathsFound(artifacts) && FirstWithPath(artifacts, BundlePath).value.url.None? ==>
      BundleSchemaUrls(artifacts) == Failure(MissingKey("url"))
    ensures AllPathsFound(artifacts) && FirstWithPath(artifacts, SchemaPath).value.url.None? ==>
      BundleSchemaUrls(artifacts) == Failure(MissingKey("url"))
    ensures AllPathsFound(artifacts) ==>
      (BundleSchemaUrls(artifacts).Success? <==>
        && FirstWithPath(artifacts, ArchivePath).value.url.Some?
        && FirstWithPath(artifacts, BundlePath).value.url.Some?
        && FirstWithPath(artifacts, SchemaPath).value.url.Some?)
  {
  }

  /** With all three paths present, each URL is that of the first artifact
      carrying the path; later duplicates are ignored. */
  lemma {:induction false} UrlsFromFirstMatches(artifacts: seq<Artifact>, iArchive: nat, iBundle: nat, iSchema: nat)
    requires iArchive < |artifacts| && iBundle < |artifacts| && iSchema < |artifacts|
    requires artifacts[iArchive].path == Some(ArchivePath) && artifacts[iArchive].url.Some?
    requires artifacts[iBundle].path == Some(BundlePath) && artifacts[iBundle].url.Some?
    requires artifacts[iSchema].path == Some(SchemaPath) && artifacts[iSchema].url.Some?
    requires forall j :: 0 <= j < iArchive ==> artifacts[j].path != Some(ArchivePath)
    requires forall j :: 0 <= j < iBundle ==> artifacts[j].path != Some(BundlePath)
    requires forall j :: 0 <= j < iSchema ==> artifacts[j].path != Some(SchemaPath)
    ensures BundleSchemaUrls(artifacts)
      == Success(ArtifactSet(artifacts[iArchive].url.value, artifacts[iBundle].url.value, artifacts[iSchema].url.value))
  {
    FilterHeadAt(artifacts, HasPath(ArchivePath), iArchive);
    FilterHeadAt(artifacts, HasPath(BundlePath), iBundle);
    FilterHeadAt(artifacts, HasPath(SchemaPath), iSchema);
  }

  /** `get_bundle_schema_local`: the same three artifacts as fixed paths
      under a local plotly.js checkout. */
  function BundleSchemaLocal(local: string): ArtifactSet {
    ArtifactSet(PathJoin(local, ArchivePath), PathJoin(local, BundlePath), PathJoin(local, SchemaPath))
  }

  /** Whatever the directory, each local path ends with the path the
      artifact has in the CircleCI build. */
  lemma {:induction false} LocalPathsEndWith(local: string)
    ensures EndsWith(BundleSchemaLocal(local).archive, ArchivePath)
    ensures EndsWith(BundleSchemaLocal(local).bundle, BundlePath)
    ensures EndsWith(BundleSchemaLocal(local).schema, SchemaPath)
  {
    PathJoinEndsWith(local, ArchivePath);
    PathJoinEndsWith(local, BundlePath);
    PathJoinEndsWith(local, SchemaPath);
  }

  /** For an ordinary directory name the local paths are the directory, a
      slash and the fixed relative path. */
  lemma {:induction false} LocalPathsUnderDirectory(local: string)
    requires |local| > 0 && local[|local| - 1] != '/'
    ensures BundleSchemaLocal(local)
      == ArtifactSet(local + "/" + ArchivePath, local + "/" + BundlePath, local + "/" + SchemaPath)
  {
    PathJoinPlain(local, ArchivePath);
    PathJoinPlain(local, BundlePath);
    PathJoinPlain(local, SchemaPath);
  }
}

=== FILE: cli.dfy ===
/** Reading the development-update options out of the raw argument list:
    `--devrepo`, `--devbranch` and `--local` each take the argument that
    follows their first occurrence anywhere in `sys.argv`. */
module Cli {
  import opened Wrappers
  import opened Seqs
  import opened Trace

  const DevRepoFlag := "--devrepo"
  const DevBranchFlag := "--devbranch"
  const LocalFlag := "--local"
  const DefaultRepo := "plotly/plotly.js"
  const DefaultBranch := "master"

  /** The argument after the first occurrence of `flag`, or `None` when the
      flag is absent; an IndexError when the flag is the last argument. */
  function FlagArg(argv: seq<string>, flag: string): (r: Result<Option<string>, Error>)
    ensures flag !in argv <==> r == Success(None)
    ensures forall i :: 0 <= i < |argv| && argv[i] == flag && (forall j :: 0 <= j < i ==> argv[j] != flag) ==>
      r == (if i + 1 < |argv| then Success(Some(argv[i + 1])) else Failure(FlagWithoutValue(flag)))
  {
    match IndexOf(argv, flag)
    case None => Success(None)
    case Some(i) =>
      if i + 1 < |argv| then Success(Some(argv[i + 1])) else Failure(FlagWithoutValue(flag))
  }

  /** The options of a development update. */
  datatype DevArgs = DevArgs(repo: string, branch: string, local: Option<string>)

  /** The three lookups in source order; the first that fails is the one
      reported. */
  function ParseDevArgs(argv: seq<string>): (r: Result<DevArgs, Error>)
    ensures r.Success? <==> FlagArg(argv, DevRepoFlag).Success? && FlagArg(argv, DevBranchFlag).Success?
                            && FlagArg(argv, LocalFlag).Success?
    ensures r.Success? ==>
      && r.value.repo == FlagArg(argv, DevRepoFlag).value.GetOr(DefaultRepo)
      && r.value.branch == FlagArg(argv, DevBranchFlag).value.GetOr(DefaultBranch)
      && r.value.local == FlagArg(argv, LocalFlag).value
  {
    var repo :- FlagArg(argv, DevRepoFlag);
    var branch :- FlagArg(argv, DevBranchFlag);
    var local :- FlagArg(argv, LocalFlag);
    Success(DevArgs(repo.GetOr(DefaultRepo), branch.GetOr(DefaultBranch), local))
  }

  /** Without any of the three flags, the defaults apply. */
  lemma {:induction false} NoFlagsGiveDefaults(argv: seq<string>)
    requires DevRepoFlag !in argv && DevBranchFlag !in argv && LocalFlag !in argv
    ensures ParseDevArgs(argv) == Success(DevArgs(DefaultRepo, DefaultBranch, None))
  {
  }

  /** Each flag is independent: giving only `--devbranch b` changes only the
      branch. */
  lemma {:induction false} BranchOnly(argv: seq<string>, b: string)
    requires DevRepoFlag !in argv && LocalFlag !in argv
    requires |argv| >= 2 && argv[|argv| - 2] == DevBranchFlag && argv[|argv| - 1] == b
    requires DevBranchFlag !in argv[..|argv| - 2]
    ensures ParseDevArgs(argv) == Success(DevArgs(DefaultRepo, b, None))
  {
    var i := |argv| - 2;
    forall j | 0 <= j < i ensures argv[j] != DevBranchFlag {
      assert argv[j] == argv[..i][j];
    }
  }
}

=== FILE: commands.dfy ===
/** The three user-facing operations of commands.py and the `main`
    dispatch: regenerate code, update to the released plotly.js declared in
    js/package.json, or update to a development build from CircleCI or from
    a local checkout. Each is a pure function from the environment to the
    trace of what it does. */
module Commands {
  import opened Wrappers
  import opened Json
  import opened Trace
  import opened CircleCi
  import opened Cli
  import opened Manifest
  import Marker
  import opened Version
  import opened Install

  /** Everything outside the helper that its behaviour depends on. */
  datatype Env = Env(
    root: string,                                 // the directory holding commands.py
    manifest: Json,                               // js/package.json as parsed
    builds: (string, string) -> seq<BuildEntry>,  // CircleCI's completed builds of (repo, branch)
    artifacts: int -> seq<Artifact>,              // CircleCI's artifacts of a build number
    reachable: set<string>,                       // URLs whose GET answers 200
    files: set<string>,                           // paths present on the local file system
    now: string,                                  // str(time.time())
    hasNpm: bool,                                 // `npm --version` succeeds
    skipNpm: Option<string>)                      // SKIP_NPM, None when unset

  const Usage := "usage: python commands.py [updateplotlyjsdev | updateplotlyjs | codegen]"
  const RawBase := "https://raw.githubusercontent.com/plotly/plotly.js/"

  function ReleaseBundleUrl(version: string): string {
    RawBase + "v" + version + "/dist/plotly.min.js"
  }

  function ReleaseSchemaUrl(version: string): string {
    RawBase + "v" + version + "/dist/plot-schema.json"
  }

  /** `overwrite_bundle`: the URL is printed before the status is checked. */
  function OverwriteBundle(env: Env, url: string): Run {
    var shown := [Print("url: " + url)];
    if url in env.reachable then Done(shown + [Download(url, BundleFile)])
    else Raise(shown, FetchFailed(url))
  }

  /** `overwrite_schema`. */
  function OverwriteSchema(env: Env, url: string): Run {
    if url in env.reachable then Done([Download(url, SchemaFile)])
    else Raise([], FetchFailed(url))
  }

  /** `overwrite_bundle_local` / `overwrite_schema_local`. */
  function CopyLocal(env: Env, source: string, dest: Target): Run {
    if source in env.files then Done([Copy(source, dest)])
    else Raise([], SourceMissing(source))
  }

  function RunCodegen(): Run {
    Done([Codegen])
  }

  /** `update_bundle`: fetch the bundle, then write the marker. */
  function UpdateBundle(env: Env, version: string): Run {
    Then(OverwriteBundle(env, ReleaseBundleUrl(version)), Done([WriteMarker(Marker.Text(version))]))
  }

  /** `update_plotlyjs`: bundle and marker, then schema, then codegen. */
  function UpdatePlotlyJs(env: Env, version: string): Run {
    Then(UpdateBundle(env, version),
    Then(OverwriteSchema(env, ReleaseSchemaUrl(version)),
         RunCodegen()))
  }

  /** The tail shared by both development sources: rewrite the manifest's
      plotly.js entry, write the marker, install. */
  function WriteMetadata(env: Env, archive: string, version: string, local: Option<string>): Run {
    match WithDependency(env.manifest, archive)
    case Failure(e) => Raise([], e)
    case Success(doc) =>
      Then(Done([WriteManifest(doc), WriteMarker(Marker.Text(version))]),
           InstallJsDeps(env.root, env.hasNpm, env.skipNpm, local, env.files))
  }

  /** A development build published by CircleCI for `repo` and `branch`. */
  function FromCi(env: Env, repo: string, branch: string): Run {
    var queried := [QueryBuilds(repo, branch)];
    match LatestPublishBuild(env.builds(repo, branch))
    case Failure(e) => Raise(queried, e)
    case Success(info) =>
      var listed := queried + [QueryArtifacts(info.buildNum)];
      match BundleSchemaUrls(env.artifacts(info.buildNum))
      case Failure(e) => Raise(listed, e)
      case Success(urls) =>
        Then(Done(listed), CiFetch(env, urls, DevVersion(repo, branch, info.committerDate, info.vcsRevision)))
  }

  /** Once the artifacts are found: fetch the bundle, fetch the schema, then
      record `version` and install from the archive URL. */
  function CiFetch(env: Env, urls: ArtifactSet, version: string): Run {
    Then(OverwriteBundle(env, urls.bundle),
    Then(OverwriteSchema(env, urls.schema),
         WriteMetadata(env, urls.archive, version, None)))
  }

  /** A development build in a local plotly.js checkout: the repo is the
      local path, the branch is empty and the revision is "local". */
  function FromLocal(env: Env, local: string): Run {
    var paths := BundleSchemaLocal(local);
    Then(CopyLocal(env, paths.bundle, BundleFile),
    Then(CopyLocal(env, paths.schema, SchemaFile),
         WriteMetadata(env, paths.archive, DevVersion(local, "", env.now, LocalRevision), Some(local))))
  }

  /** `update_schema_bundle_from_master`. */
  function UpdateSchemaBundleFromMaster(env: Env, argv: seq<string>): Run {
    match ParseDevArgs(argv)
    case Failure(e) => Raise([], e)
    case Success(args) =>
      if args.local.None? then FromCi(env, args.repo, args.branch)
      else FromLocal(env, args.local.value)
  }

  /** `update_plotlyjs_dev`. */
  function UpdatePlotlyJsDev(env: Env, argv: seq<string>): Run {
    Then(UpdateSchemaBundleFromMaster(env, argv), RunCodegen())
  }

  /** `main`. The released flow reads the manifest twice; nothing writes it
      in between, so both reads agree and one suffices here. */
  function Main(env: Env, argv: seq<string>): Run {
    if |argv| != 2 then Run([PrintError(Usage)], Exited(1))
    else if argv[1] == "codegen" then RunCodegen()
    else if argv[1] == "updateplotlyjsdev" then UpdatePlotlyJsDev(env, argv)
    else if argv[1] == "updateplotlyjs" then
      match DeclaredVersion(env.manifest)
      case Failure(e) => Raise([], e)
      case Success(v) => Then(Done([Print(v)]), UpdatePlotlyJs(env, v))
    else Done([])
  }
}

=== FILE: install.dfy ===
/** `install_js_deps`: install the JavaScript dependencies with npm, build the
    widget bundle, then check that the bundle exists. The host environment
    enters as parameters: whether `npm --version` succeeded, the value of
    SKIP_NPM (`None` when unset), and the set of paths present afterwards. */
module Install {
  import opened Wrappers
  import opened Trace
  import opened CircleCi

  /** SKIP_NPM is truthy: set and non-empty. */
  predicate SkipsNpm(skipNpm: Option<string>) {
    skipNpm.Some? && skipNpm.value != ""
  }

  /** The arguments of the npm invocations in a trace, in order. */
  function NpmCommands(effects: seq<Effect>): seq<seq<string>> {
    if |effects| == 0 then []
    else (if effects[0].Npm? then [effects[0].args] else []) + NpmCommands(effects[1..])
  }

  lemma {:induction false} NpmCommandsConcat(a: seq<Effect>, b: seq<Effect>)
    ensures NpmCommands(a + b) == NpmCommands(a) + NpmCommands(b)
  {
    if |a| == 0 {
      assert a + b == b;
    } else {
      var head := if a[0].Npm? then [a[0].args] else [];
      assert (a + b)[0] == a[0];
      assert (a + b)[1..] == a[1..] + b;
      assert NpmCommands(a + b) == head + NpmCommands(a[1..] + b);
      NpmCommandsConcat(a[1..], b);
      assert NpmCommands(a) == head + NpmCommands(a[1..]);
    }
  }

  /** The npm steps run when npm is available: install, install the local
      archive when there is one, build, and touch node_modules. */
  function NpmSteps(local: Option<string>): seq<Effect> {
    [Npm(["install"])] + LocalInstall(local) + [Npm(["run", "build"]), Touch(NodeModules)]
  }

  /** `npm install <archive>` of a local checkout's packed plotly.js. */
  function LocalInstall(local: Option<string>): seq<Effect> {
    if local.Some? then [Npm(["install", BundleSchemaLocal(local.value).archive])] else []
  }

  function MissingFileMessage(path: string): string {
    "Missing file: " + path
  }

  function InstallJsDeps(root: string, hasNpm: bool, skipNpm: Option<string>, local: Option<string>,
                         files: set<string>): (r: Run)
    // npm is probed first, whatever happens next
    ensures |r.effects| > 0 && r.effects[0] == ProbeNpm
    // a non-empty SKIP_NPM returns before any npm step and before the check
    ensures SkipsNpm(skipNpm) ==> r == Done([ProbeNpm])
    // otherwise the run ends well exactly when the widget bundle is present
    ensures !SkipsNpm(skipNpm) ==>
      (r.status == Completed <==> TargetPath(root, WidgetBundle) in files)
    ensures !SkipsNpm(skipNpm) && r.status != Completed ==>
      r.status == Raised(BuildOutputMissing(MissingFileMessage(TargetPath(root, WidgetBundle))))
    // node_modules is touched only after a build with npm
    ensures Touch(NodeModules) in r.effects ==> !SkipsNpm(skipNpm) && hasNpm
    // and whenever npm ran, the build comes last but one and the touch last
    ensures !SkipsNpm(skipNpm) && hasNpm ==>
      && |r.effects| >= 3
      && r.effects[|r.effects| - 2] == Npm(["run", "build"])
      && r.effects[|r.effects| - 1] == Touch(NodeModules)
  {
    if SkipsNpm(skipNpm) then Done([ProbeNpm])
    else
      var steps := [ProbeNpm] + (if hasNpm then NpmSteps(local) else []);
      var target := TargetPath(root, WidgetBundle);
      if target in files then Done(steps)
      else Raise(steps, BuildOutputMissing(MissingFileMessage(target)))
  }

  /** The only effects of installing: probing for npm, running npm, and
      touching node_modules. */
  predicate IsInstallStep(e: Effect) {
    e == ProbeNpm || e.Npm? || e == Touch(NodeModules)
  }

  /** Installing downloads nothing, copies nothing and writes none of the
      files the helper manages: it only probes, runs npm and touches. */
  lemma {:induction false} InstallStepsOnly(root: string, hasNpm: bool, skipNpm: Option<string>, local: Option<string>,
                         files: set<string>)
    ensures forall e :: e in InstallJsDeps(root, hasNpm, skipNpm, local, files).effects ==> IsInstallStep(e)
  {
    var r := InstallJsDeps(root, hasNpm, skipNpm, local, files);
    NpmStepsOnly(local);
    assert forall i :: 0 <= i < |r.effects| ==> IsInstallStep(r.effects[i]) by {
      if !SkipsNpm(skipNpm) && hasNpm {
        assert r.effects == [ProbeNpm] + NpmSteps(local);
        forall i | 0 <= i < |r.effects| ensures IsInstallStep(r.effects[i]) {
          if i > 0 {
            assert r.effects[i] == NpmSteps(local)[i - 1];
          }
        }
      }
    }
  }

  lemma {:induction false} NpmStepsOnly(local: Option<string>)
    ensures forall i :: 0 <= i < |NpmSteps(local)| ==> IsInstallStep(NpmSteps(local)[i])
  {
    var head: seq<Effect> := [Npm(["install"])];
    var mid := LocalInstall(local);
    var tail := [Npm(["run", "build"]), Touch(NodeModules)];
    assert forall i :: 0 <= i < |mid| ==> mid[i].Npm?;
    forall i | 0 <= i < |NpmSteps(local)| ensures IsInstallStep(NpmSteps(local)[i]) {
      if i < 1 {
        assert NpmSteps(local)[i] == head[i];
      } else if i < 1 + |mid| {
        assert NpmSteps(local)[i] == mid[i - 1];
      } else {
        assert NpmSteps(local)[i] == tail[i - 1 - |mid|];
      }
    }
  }

  /** The npm commands issued: none when skipped or when npm is unavailable
      (which is only logged); otherwise `install`, then `install <archive>`
      for a local build, then `run build`. */
  lemma {:induction false} InstallCommands(root: string, hasNpm: bool, skipNpm: Option<string>, local: Option<string>,
                        files: set<string>)
    ensures NpmCommands(InstallJsDeps(root, hasNpm, skipNpm, local, files).effects)
      == if SkipsNpm(skipNpm) || !hasNpm then []
         else [["install"]]
              + (if local.Some? then [["install", BundleSchemaLocal(local.value).archive]] else [])
              + [["run", "build"]]
  {
    var r := InstallJsDeps(root, hasNpm, skipNpm, local, files);
    if !SkipsNpm(skipNpm) && hasNpm {
      var mid := LocalInstall(local);
      var tail := [Npm(["run", "build"]), Touch(NodeModules)];
      assert NpmCommands(mid) == if local.Some? then [["install", BundleSchemaLocal(local.value).archive]] else [];
      assert r.effects == [ProbeNpm] + ([Npm(["install"])] + mid + tail);
      NpmCommandsConcat([ProbeNpm], [Npm(["install"])] + mid + tail);
      NpmCommandsConcat([Npm(["install"])] + mid, tail);
      NpmCommandsConcat([Npm(["install"])], mid);
      assert NpmCommands(tail) == [["run", "build"]] by {
        assert tail[1..][1..] == [];
      }
    }
  }
}

=== FILE: json.dfy ===
/** An already-parsed JSON document, as `json.load` returns it: objects keep
    their members in document order (a Python `dict` preserves insertion
    order), so an object is an association list rather than a `map`. */
module Json {
  import opened Wrappers

  datatype Json =
    | JNull
    | JBool(b: bool)
    | JNum(n: int)
    | JStr(s: string)
    | JArr(items: seq<Json>)
    | JObj(members: seq<Member>)

  datatype Member = Member(key: string, value: Json)

  /** The keys of an object, in order. */
  function Keys(ms: seq<Member>): (r: seq<string>)
    ensures |r| == |ms|
    ensures forall i :: 0 <= i < |ms| ==> r[i] == ms[i].key
  {
    if |ms| == 0 then [] else [ms[0].key] + Keys(ms[1..])
  }

  /** `k in d`. */
  predicate HasKey(ms: seq<Member>, k: string) {
    |ms| > 0 && (ms[0].key == k || HasKey(ms[1..], k))
  }

  /** A Python dict never holds a key twice. */
  predicate UniqueKeys(ms: seq<Member>) {
    forall i, j :: 0 <= i < j < |ms| ==> ms[i].key != ms[j].key
  }

  /** `d.get(k)`: the value stored under the first occurrence of `k`. */
  function Lookup(ms: seq<Member>, k: string): (r: Option<Json>)
    ensures r.None? <==> !HasKey(ms, k)
  {
    if |ms| == 0 then None
    else if ms[0].key == k then Some(ms[0].value)
    else Lookup(ms[1..], k)
  }

  /** `d[k] = v`: an existing key keeps its position and takes the new
      value; a new key is appended at the end. */
  function Store(ms: seq<Member>, k: string, v: Json): (r: seq<Member>)
    ensures |r| == if HasKey(ms, k) then |ms| else |ms| + 1
    ensures forall i :: 0 <= i < |ms| ==> r[i].key == ms[i].key
    ensures forall i :: 0 <= i < |ms| && ms[i].key != k ==> r[i] == ms[i]
    ensures !HasKey(ms, k) ==> r[|ms|] == Member(k, v)
  {
    if |ms| == 0 then [Member(k, v)]
    else if ms[0].key == k then [Member(k, v)] + ms[1..]
    else [ms[0]] + Store(ms[1..], k, v)
  }

  /** The stored value is what a later lookup of the key finds. */
  lemma {:induction false} StoreLookup(ms: seq<Member>, k: string, v: Json)
    ensures Lookup(Store(ms, k, v), k) == Some(v)
  {
    if |ms| == 0 {
    } else if ms[0].key == k {
    } else {
      StoreLookup(ms[1..], k, v);
      assert Store(ms, k, v)[1..] == Store(ms[1..], k, v);
    }
  }

  /** The keys keep their order; a new key goes last. */
  lemma {:induction false} StoreKeys(ms: seq<Member>, k: string, v: Json)
    ensures Keys(Store(ms, k, v)) == if HasKey(ms, k) then Keys(ms) else Keys(ms) + [k]
  {
    if |ms| == 0 {
    } else if ms[0].key == k {
      assert Store(ms, k, v)[1..] == ms[1..];
    } else {
      StoreKeys(ms[1..], k, v);
      assert Store(ms, k, v)[1..] == Store(ms[1..], k, v);
      if !HasKey(ms, k) {
        assert Keys(ms) + [k] == [ms[0].key] + (Keys(ms[1..]) + [k]);
      }
    }
  }

  /** Storing under one key leaves every other key's value as it was. */
  lemma {:induction false} StoreOthers(ms: seq<Member>, k: string, v: Json, k': string)
    requires k' != k
    ensures Lookup(Store(ms, k, v), k') == Lookup(ms, k')
  {
    if |ms| == 0 {
    } else if ms[0].key == k {
    } else {
      StoreOthers(ms[1..], k, v, k');
      assert Store(ms, k, v)[1..] == Store(ms[1..], k, v);
    }
  }

  /** Storing the value a key already has changes nothing. */
  lemma {:induction false} StoreSameValue(ms: seq<Member>, k: string, v: Json)
    requires Lookup(ms, k) == Some(v)
    ensures Store(ms, k, v) == ms
  {
    if ms[0].key == k {
    } else {
      StoreSameValue(ms[1..], k, v);
      assert [ms[0]] + ms[1..] == ms;
    }
  }

  /** A key is present exactly when some member carries it. */
  lemma {:induction false} HasKeyAt(ms: seq<Member>, k: string)
    ensures HasKey(ms, k) <==> exists i :: 0 <= i < |ms| && ms[i].key == k
  {
    if |ms| > 0 {
      HasKeyAt(ms[1..], k);
      if HasKey(ms[1..], k) {
        var i :| 0 <= i < |ms[1..]| && ms[1..][i].key == k;
        assert ms[i + 1].key == k;
      }
      if exists i :: 0 <= i < |ms| && ms[i].key == k {
        var i :| 0 <= i < |ms| && ms[i].key == k;
        if i > 0 { assert ms[1..][i - 1].key == k; }
      }
    }
  }

  /** Storing keeps a dict a dict: no key appears twice afterwards. */
  lemma {:induction false} StoreUnique(ms: seq<Member>, k: string, v: Json)
    requires UniqueKeys(ms)
    ensures UniqueKeys(Store(ms, k, v))
  {
    HasKeyAt(ms, k);
  }
}

=== FILE: manifest.dfy ===
/** The two things the helper does with js/package.json: read the declared
    plotly.js dependency (`plotly_js_version`) and replace it
    (`package_json["dependencies"]["plotly.js"] = ...`). */
module Manifest {
  import opened Wrappers
  import opened Json
  import opened Strings
  import opened Trace

  const Dependencies := "dependencies"
  const PlotlyJs := "plotly.js"

  /** `doc["dependencies"]`: the dependency object. Indexing anything but an
      object is a TypeError; a missing key is a KeyError. */
  function DependencyMembers(doc: Json): (r: Result<seq<Member>, Error>)
    ensures r.Success? <==> doc.JObj? && Lookup(doc.members, Dependencies).Some?
                            && Lookup(doc.members, Dependencies).value.JObj?
    ensures r.Success? ==> Lookup(doc.members, Dependencies) == Some(JObj(r.value))
  {
    if !doc.JObj? then Failure(WrongShape("package.json"))
    else match Lookup(doc.members, Dependencies)
      case None => Failure(MissingKey(Dependencies))
      case Some(deps) =>
        if deps.JObj? then Success(deps.members) else Failure(WrongShape(Dependencies))
  }

  /** `doc["dependencies"]["plotly.js"]`, as stored. */
  function DeclaredDependency(doc: Json): (r: Result<Json, Error>)
    ensures r.Success? <==> DependencyMembers(doc).Success? && HasKey(DependencyMembers(doc).value, PlotlyJs)
    ensures r.Success? ==> Lookup(DependencyMembers(doc).value, PlotlyJs) == Some(r.value)
    ensures DependencyMembers(doc).Success? && r.Failure? ==> r.error == MissingKey(PlotlyJs)
  {
    var deps :- DependencyMembers(doc);
    match Lookup(deps, PlotlyJs)
    case None => Failure(MissingKey(PlotlyJs))
    case Some(v) => Success(v)
  }

  /** `plotly_js_version()`: the declared dependency with every `^` removed.
      A non-string value has no `replace` (AttributeError). */
  function DeclaredVersion(doc: Json): (r: Result<string, Error>)
    ensures r.Success? ==> '^' !in r.value
    ensures r.Success? <==> DeclaredDependency(doc).Success? && DeclaredDependency(doc).value.JStr?
    ensures r.Success? ==> r.value == StripAll(DeclaredDependency(doc).value.s, '^')
  {
    var v :- DeclaredDependency(doc);
    if v.JStr? then Success(StripAll(v.s, '^')) else Failure(WrongShape(PlotlyJs))
  }

  /** The manifest with `dependencies["plotly.js"]` set to `archive`. It
      fails exactly where reading the dependency object fails. */
  function WithDependency(doc: Json, archive: string): (r: Result<Json, Error>)
    ensures r.Success? <==> DependencyMembers(doc).Success?
    ensures r.Failure? ==> r.error == DependencyMembers(doc).error
    ensures r.Success? ==> r.value.JObj?
  {
    var deps :- DependencyMembers(doc);
    Success(JObj(Store(doc.members, Dependencies, JObj(Store(deps, PlotlyJs, JStr(archive))))))
  }

  /** Reading back after the rewrite finds the new value; the released flow
      would then see it with its carets removed. */
  lemma {:induction false} ReadAfterWrite(doc: Json, archive: string)
    requires WithDependency(doc, archive).Success?
    ensures DeclaredDependency(WithDependency(doc, archive).value) == Success(JStr(archive))
    ensures DeclaredVersion(WithDependency(doc, archive).value) == Success(StripAll(archive, '^'))
  {
    var deps := DependencyMembers(doc).value;
    StoreLookup(doc.members, Dependencies, JObj(Store(deps, PlotlyJs, JStr(archive))));
    StoreLookup(deps, PlotlyJs, JStr(archive));
  }

  /** Only `dependencies["plotly.js"]` changes: every other top-level key and
      every other dependency keeps its value, and the keys keep their order. */
  lemma {:induction false} OnlyPlotlyJsChanges(doc: Json, archive: string, key: string, dep: string)
    requires WithDependency(doc, archive).Success?
    requires key != Dependencies && dep != PlotlyJs
    ensures var out := WithDependency(doc, archive).value;
      && Keys(out.members) == Keys(doc.members)
      && Lookup(out.members, key) == Lookup(doc.members, key)
      && DependencyMembers(out).Success?
      && Lookup(DependencyMembers(out).value, dep) == Lookup(DependencyMembers(doc).value, dep)
  {
    var deps := DependencyMembers(doc).value;
    var newDeps := JObj(Store(deps, PlotlyJs, JStr(archive)));
    StoreKeys(doc.members, Dependencies, newDeps);
    StoreOthers(doc.members, Dependencies, newDeps, key);
    StoreLookup(doc.members, Dependencies, newDeps);
    StoreOthers(deps, PlotlyJs, JStr(archive), dep);
  }

  /** The dependency keys keep their order; `plotly.js` is appended when it
      was not declared before. */
  lemma {:induction false} DependencyOrderKept(doc: Json, archive: string)
    requires WithDependency(doc, archive).Success?
    ensures DependencyMembers(WithDependency(doc, archive).value).Success?
    ensures var deps := DependencyMembers(doc).value;
      Keys(DependencyMembers(WithDependency(doc, archive).value).value)
        == if HasKey(deps, PlotlyJs) then Keys(deps) else Keys(deps) + [PlotlyJs]
  {
    var deps := DependencyMembers(doc).value;
    StoreLookup(doc.members, Dependencies, JObj(Store(deps, PlotlyJs, JStr(archive))));
    StoreKeys(deps, PlotlyJs, JStr(archive));
  }

  /** Writing the value already declared is a no-op. */
  lemma {:induction false} RewriteSameIsNoOp(doc: Json, archive: string)
    requires DeclaredDependency(doc) == Success(JStr(archive))
    ensures WithDependency(doc, archive) == Success(doc)
  {
    var deps := DependencyMembers(doc).value;
    StoreSameValue(deps, PlotlyJs, JStr(archive));
    StoreSameValue(doc.members, Dependencies, JObj(deps));
  }

  /** Rewriting twice with the same value is rewriting once. */
  lemma {:induction false} RewriteIdempotent(doc: Json, archive: string)
    requires WithDependency(doc, archive).Success?
    ensures WithDependency(WithDependency(doc, archive).value, archive) == WithDependency(doc, archive)
  {
    ReadAfterWrite(doc, archive);
    RewriteSameIsNoOp(WithDependency(doc, archive).value, archive);
  }

  /** The rewrite keeps a parsed manifest well formed: no object on the
      path it touches gains a duplicate key. */
  lemma {:induction false} RewriteKeepsUniqueKeys(doc: Json, archive: string)
    requires WithDependency(doc, archive).Success?
    requires UniqueKeys(doc.members) && UniqueKeys(DependencyMembers(doc).value)
    ensures var out := WithDependency(doc, archive).value;
      UniqueKeys(out.members) && DependencyMembers(out).Success? && UniqueKeys(DependencyMembers(out).value)
  {
    var deps := DependencyMembers(doc).value;
    var newDeps := Store(deps, PlotlyJs, JStr(archive));
    StoreUnique(deps, PlotlyJs, JStr(archive));
    StoreUnique(doc.members, Dependencies, JObj(newDeps));
    StoreLookup(doc.members, Dependencies, JObj(newDeps));
  }
}

=== FILE: marker.dfy ===
/** The generated version-marker file plotly/offline/_plotlyjs_version.py
    (`overwrite_plotlyjs_version_file`): a do-not-edit notice, a line naming
    the command that generated it, and one assignment of the version string. */
module Marker {
  import opened Wrappers
  import opened Strings

  const NoticeLine := "# DO NOT EDIT"
  // Written word by word so that each piece is short enough for the verifier
  // to see that no line break occurs in it.
  const GeneratedLine := "# This file " + "is generated " + "by the " + "updatebundle " + "commands.py " + "command"
  const AssignPrefix := "__plotlyjs_version__ = \""

  /** The assignment line, without its line break. */
  function Assignment(version: string): string {
    AssignPrefix + version + "\""
  }

  /** The complete file contents written for `version`; the file is
      truncated first, so this is all it holds afterwards. */
  function Text(version: string): string {
    NoticeLine + "\n" + GeneratedLine + "\n" + Assignment(version) + "\n"
  }

  const Header := NoticeLine + "\n" + GeneratedLine + "\n" + AssignPrefix

  /** Reads the version back out of a marker file's contents, or `None` when
      the contents do not have the generated shape. */
  function VersionOf(text: string): (r: Option<string>)
    ensures r.Some? ==> Text(r.value) == text
  {
    if |text| >= |Header| + 2 && text[..|Header|] == Header && text[|text| - 2..] == "\"\n" then
      var v := text[|Header|..|text| - 2];
      assert text == Header + v + "\"\n";
      Some(v)
    else None
  }

  /** Reading back the version written recovers it exactly: the file holds
      the version and nothing left over from an earlier one. */
  lemma {:induction false} VersionRoundTrip(version: string)
    ensures VersionOf(Text(version)) == Some(version)
  {
    var t := Text(version);
    assert t == Header + version + "\"\n";
    assert t[..|Header|] == Header;
    assert t[|Header|..|t| - 2] == version;
  }

  /** Different versions give different files. */
  lemma {:induction false} TextInjective(v: string, w: string)
    requires Text(v) == Text(w)
    ensures v == w
  {
    VersionRoundTrip(v);
    VersionRoundTrip(w);
  }

  /** Line by line, a version without a line break gives exactly the notice,
      the generated-by line and a single assignment, then the final newline. */
  lemma {:induction false} Lines(version: string)
    requires '\n' !in version
    ensures Split(Text(version), '\n') == [NoticeLine, GeneratedLine, Assignment(version), ""]
  {
    var parts := [NoticeLine, GeneratedLine, Assignment(version), ""];
    AssignmentSingleLine(version);
    assert '\n' !in NoticeLine;
    assert '\n' !in GeneratedLine;
    assert parts[1..][1..] == [Assignment(version), ""];
    assert Join("\n", [Assignment(version), ""]) == Assignment(version) + "\n" + "";
    assert Join("\n", parts) == Text(version);
    SplitJoin(parts, '\n');
  }

  /** The assignment line holds no line break of its own. */
  lemma {:induction false} AssignmentSingleLine(version: string)
    requires '\n' !in version
    ensures '\n' !in Assignment(version)
  {
    assert Assignment(version) == AssignPrefix + version + "\"";
    forall i | 0 <= i < |Assignment(version)|
      ensures Assignment(version)[i] != '\n'
    {
      if i < |AssignPrefix| {
        assert Assignment(version)[i] == AssignPrefix[i];
      } else if i < |AssignPrefix| + |version| {
        assert Assignment(version)[i] == version[i - |AssignPrefix|];
      }
    }
  }
}

=== FILE: properties.dfy ===
/** What the operations of commands.py promise as wholes: the exact effects
    of each command, their order, what is never written, and how a failure
    part-way leaves what was already done. */
module CommandProperties {
  import opened Wrappers
  import Seqs
  import opened Json
  import opened Strings
  import opened Trace
  import opened CircleCi
  import opened Cli
  import opened Manifest
  import Marker
  import opened Version
  import opened Install
  import opened Commands

  /** Effects that reach CircleCI or download from the network. */
  predicate IsRemote(e: Effect) {
    e.QueryBuilds? || e.QueryArtifacts? || e.Download?
  }

  /** A wrong number of arguments prints the usage line to standard error,
      exits with status 1 and does nothing else; it is the only way `main`
      exits with a status. */
  lemma {:induction false} UsageOnWrongArgumentCount(env: Env, argv: seq<string>)
    ensures |argv| != 2 ==> Main(env, argv) == Run([PrintError(Usage)], Exited(1))
    ensures |argv| != 2 ==> Written(Main(env, argv).effects) == {}
    ensures Main(env, argv).status.Exited? <==> |argv| != 2
  {
    if |argv| == 2 && argv[1] == "updateplotlyjsdev" {
      var first := UpdateSchemaBundleFromMaster(env, argv);
      match ParseDevArgs(argv)
      case Failure(_) =>
      case Success(args) =>
        if args.local.None? {
          CiStatus(env, args.repo, args.branch);
        } else {
          LocalStatus(env, args.local.value);
        }
    } else if |argv| == 2 && argv[1] == "updateplotlyjs" {
      match DeclaredVersion(env.manifest)
      case Failure(_) =>
      case Success(v) =>
        assert !UpdatePlotlyJs(env, v).status.Exited?;
    }
  }

  lemma {:induction false} MetadataStatus(env: Env, archive: string, version: string, local: Option<string>)
    ensures !WriteMetadata(env, archive, version, local).status.Exited?
  {
  }

  lemma {:induction false} CiStatus(env: Env, repo: string, branch: string)
    ensures !FromCi(env, repo, branch).status.Exited?
  {
    match LatestPublishBuild(env.builds(repo, branch))
    case Failure(_) =>
    case Success(info) =>
      match BundleSchemaUrls(env.artifacts(info.buildNum))
      case Failure(_) =>
      case Success(urls) =>
        MetadataStatus(env, urls.archive,
                       DevVersion(repo, branch, info.committerDate, info.vcsRevision), None);
  }

  lemma {:induction false} LocalStatus(env: Env, local: string)
    ensures !FromLocal(env, local).status.Exited?
  {
    var paths := BundleSchemaLocal(local);
    MetadataStatus(env, paths.archive, DevVersion(local, "", env.now, LocalRevision), Some(local));
  }

  /** `codegen` runs the code generator and nothing else; an argument that
      names no command does nothing at all. */
  lemma {:induction false} SingleArgumentDispatch(env: Env, argv: seq<string>)
    requires |argv| == 2
    ensures argv[1] == "codegen" ==> Main(env, argv) == Done([Codegen])
    ensures argv[1] !in ["codegen", "updateplotlyjsdev", "updateplotlyjs"] ==> Main(env, argv) == Done([])
  {
  }

  /** `main` hands the released update the declared version, after
      printing it. */
  lemma {:induction false} ReleasedDispatch(env: Env, argv: seq<string>, v: string)
    requires |argv| == 2 && argv[1] == "updateplotlyjs"
    requires DeclaredVersion(env.manifest) == Success(v)
    ensures Main(env, argv) == Then(Done([Print(v)]), UpdatePlotlyJs(env, v))
  {
  }

  /** `update_bundle` prints the URL, downloads the bundle, then writes the
      marker. */
  lemma {:induction false} BundleSteps(env: Env, v: string)
    requires ReleaseBundleUrl(v) in env.reachable
    ensures UpdateBundle(env, v)
      == Done([Print("url: " + ReleaseBundleUrl(v)), Download(ReleaseBundleUrl(v), BundleFile),
               WriteMarker(Marker.Text(v))])
  {
  }

  /** The released update: print the declared version (carets removed),
      fetch the bundle, write the marker, fetch the schema, regenerate —
      in that order, touching exactly those three files. */
  lemma {:induction false} ReleasedUpdate(env: Env, argv: seq<string>, declared: string)
    requires |argv| == 2 && argv[1] == "updateplotlyjs"
    requires DeclaredDependency(env.manifest) == Success(JStr(declared))
    requires var v := StripAll(declared, '^');
      ReleaseBundleUrl(v) in env.reachable && ReleaseSchemaUrl(v) in env.reachable
    ensures var v := StripAll(declared, '^');
      Main(env, argv) == Done([Print(v),
                               Print("url: " + ReleaseBundleUrl(v)),
                               Download(ReleaseBundleUrl(v), BundleFile),
                               WriteMarker(Marker.Text(v)),
                               Download(ReleaseSchemaUrl(v), SchemaFile),
                               Codegen])
    ensures Written(Main(env, argv).effects) == {BundleFile, MarkerFile, SchemaFile}
  {
    var v := StripAll(declared, '^');
    ReleasedDispatch(env, argv, v);
    BundleSteps(env, v);
    ReleasedWrites(v);
  }

  lemma {:induction false} ReleasedWrites(v: string)
    ensures Written([Print(v), Print("url: " + ReleaseBundleUrl(v)), Download(ReleaseBundleUrl(v), BundleFile),
                     WriteMarker(Marker.Text(v)), Download(ReleaseSchemaUrl(v), SchemaFile), Codegen])
      == {BundleFile, MarkerFile, SchemaFile}
  {
    SixWrites(v, "url: " + ReleaseBundleUrl(v), ReleaseBundleUrl(v), Marker.Text(v), ReleaseSchemaUrl(v));
  }

  lemma {:induction false} SixWrites(a: string, b: string, bundle: string, text: string, schema: string)
    ensures Written([Print(a), Print(b), Download(bundle, BundleFile), WriteMarker(text),
                     Download(schema, SchemaFile), Codegen])
      == {BundleFile, MarkerFile, SchemaFile}
  {
    var s5 := [Codegen];
    var s4 := [Download(schema, SchemaFile)] + s5;
    var s3 := [WriteMarker(text)] + s4;
    var s2 := [Download(bundle, BundleFile)] + s3;
    var s1 := [Print(b)] + s2;
    WrittenCons(Codegen, []);
    assert [Codegen] + [] == s5;
    WrittenCons(Download(schema, SchemaFile), s5);
    WrittenCons(WriteMarker(text), s4);
    WrittenCons(Download(bundle, BundleFile), s3);
    WrittenCons(Print(b), s2);
    WrittenCons(Print(a), s1);
    assert [Print(a)] + s1 == [Print(a), Print(b), Download(bundle, BundleFile), WriteMarker(text),
                               Download(schema, SchemaFile), Codegen];
  }

  /** Nothing is rolled back: when the schema download fails, the bundle and
      marker already written stay written and code generation never runs. */
  lemma {:induction false} ReleasedUpdateSchemaFailure(env: Env, argv: seq<string>, v: string)
    requires |argv| == 2 && argv[1] == "updateplotlyjs"
    requires DeclaredVersion(env.manifest) == Success(v)
    requires ReleaseBundleUrl(v) in env.reachable && ReleaseSchemaUrl(v) !in env.reachable
    ensures Main(env, argv)
      == Run([Print(v), Print("url: " + ReleaseBundleUrl(v)), Download(ReleaseBundleUrl(v), BundleFile),
              WriteMarker(Marker.Text(v))], Raised(FetchFailed(ReleaseSchemaUrl(v))))
    ensures Written(Main(env, argv).effects) == {BundleFile, MarkerFile}
  {
    ReleasedDispatch(env, argv, v);
    BundleSteps(env, v);
    PartialWrites(v);
  }

  lemma {:induction false} PartialWrites(v: string)
    ensures Written([Print(v), Print("url: " + ReleaseBundleUrl(v)), Download(ReleaseBundleUrl(v), BundleFile),
                     WriteMarker(Marker.Text(v))]) == {BundleFile, MarkerFile}
  {
    FourWrites(v, "url: " + ReleaseBundleUrl(v), ReleaseBundleUrl(v), Marker.Text(v));
  }

  lemma {:induction false} FourWrites(a: string, b: string, bundle: string, text: string)
    ensures Written([Print(a), Print(b), Download(bundle, BundleFile), WriteMarker(text)]) == {BundleFile, MarkerFile}
  {
    var s3 := [WriteMarker(text)];
    var s2 := [Download(bundle, BundleFile)] + s3;
    var s1 := [Print(b)] + s2;
    WrittenCons(WriteMarker(text), []);
    assert [WriteMarker(text)] + [] == s3;
    WrittenCons(Download(bundle, BundleFile), s3);
    WrittenCons(Print(b), s2);
    WrittenCons(Print(a), s1);
    assert [Print(a)] + s1 == [Print(a), Print(b), Download(bundle, BundleFile), WriteMarker(text)];
  }

  /** `main` accepts exactly two arguments, so a development update it
      starts can carry no flags: unless the program name itself is one of
      the flags, the defaults are used. */
  lemma {:induction false} DevFromMainUsesDefaults(env: Env, argv: seq<string>)
    requires |argv| == 2 && argv[1] == "updateplotlyjsdev"
    requires argv[0] != DevRepoFlag && argv[0] != DevBranchFlag && argv[0] != LocalFlag
    ensures Main(env, argv) == Then(FromCi(env, DefaultRepo, DefaultBranch), RunCodegen())
  {
    NoFlagsGiveDefaults(argv);
  }

  /** The exception: a program name equal to `--local` takes the command
      name as the local directory. */
  lemma {:induction false} DevFromMainLocalQuirk(env: Env)
    ensures Main(env, ["--local", "updateplotlyjsdev"])
      == Then(FromLocal(env, "updateplotlyjsdev"), RunCodegen())
  {
    var argv := ["--local", "updateplotlyjsdev"];
    assert Seqs.IndexOf(argv, LocalFlag) == Some(0);
    assert ParseDevArgs(argv) == Success(DevArgs(DefaultRepo, DefaultBranch, Some("updateplotlyjsdev")));
  }

  /** A local development update copies the bundle and schema from the
      checkout, points the manifest at the checkout's archive, writes the
      marker `<local>__<now[:10]>_local`, then installs with that archive. */
  lemma {:induction false} LocalUpdate(env: Env, local: string)
    requires BundleSchemaLocal(local).bundle in env.files && BundleSchemaLocal(local).schema in env.files
    requires WithDependency(env.manifest, BundleSchemaLocal(local).archive).Success?
    ensures var paths := BundleSchemaLocal(local);
      var doc := WithDependency(env.manifest, paths.archive).value;
      && FromLocal(env, local)
           == Then(Done([Copy(paths.bundle, BundleFile),
                         Copy(paths.schema, SchemaFile),
                         WriteManifest(doc),
                         WriteMarker(Marker.Text(local + "__" + Prefix(env.now, DateWidth) + "_local"))]),
                   InstallJsDeps(env.root, env.hasNpm, env.skipNpm, Some(local), env.files))
      && DeclaredDependency(doc) == Success(JStr(paths.archive))
  {
    var paths := BundleSchemaLocal(local);
    LocalVersion(local, env.now);
    ReadAfterWrite(env.manifest, paths.archive);
    LocalSteps(env, local);
  }

  /** The local flow step by step, each step completed. */
  lemma {:induction false} LocalSteps(env: Env, local: string)
    requires BundleSchemaLocal(local).bundle in env.files && BundleSchemaLocal(local).schema in env.files
    requires WithDependency(env.manifest, BundleSchemaLocal(local).archive).Success?
    ensures var paths := BundleSchemaLocal(local);
      FromLocal(env, local)
        == Then(Done([Copy(paths.bundle, BundleFile),
                      Copy(paths.schema, SchemaFile),
                      WriteManifest(WithDependency(env.manifest, paths.archive).value),
                      WriteMarker(Marker.Text(DevVersion(local, "", env.now, LocalRevision)))]),
                InstallJsDeps(env.root, env.hasNpm, env.skipNpm, Some(local), env.files))
  {
    var paths := BundleSchemaLocal(local);
    var version := DevVersion(local, "", env.now, LocalRevision);
    var doc := WithDependency(env.manifest, paths.archive).value;
    var install := InstallJsDeps(env.root, env.hasNpm, env.skipNpm, Some(local), env.files);
    var written := [WriteManifest(doc), WriteMarker(Marker.Text(version))];
    assert WriteMetadata(env, paths.archive, version, Some(local)) == Then(Done(written), install);
    ThenDone([Copy(paths.schema, SchemaFile)], written, install);
    ThenDone([Copy(paths.bundle, BundleFile)], [Copy(paths.schema, SchemaFile)] + written, install);
    assert [Copy(paths.bundle, BundleFile)] + ([Copy(paths.schema, SchemaFile)] + written)
      == [Copy(paths.bundle, BundleFile), Copy(paths.schema, SchemaFile), written[0], written[1]];
  }

  /** A CI development update queries the builds, then the artifacts of the
      chosen build, fetches bundle and schema, points the manifest at the
      archive URL, writes the marker `repo_branch_date[:10]_rev[:8]`, then
      installs. */
  lemma {:induction false} CiUpdate(env: Env, repo: string, branch: string, info: BuildInfo, urls: ArtifactSet)
    ensures CiReady(env, repo, branch, info, urls) ==>
      var doc := WithDependency(env.manifest, urls.archive).value;
      && FromCi(env, repo, branch)
           == Then(Done([QueryBuilds(repo, branch),
                         QueryArtifacts(info.buildNum),
                         Print("url: " + urls.bundle),
                         Download(urls.bundle, BundleFile),
                         Download(urls.schema, SchemaFile),
                         WriteManifest(doc),
                         WriteMarker(Marker.Text(repo + "_" + branch + "_" + Prefix(info.committerDate, DateWidth)
                                                 + "_" + Prefix(info.vcsRevision, RevWidth)))]),
                   InstallJsDeps(env.root, env.hasNpm, env.skipNpm, None, env.files))
      && DeclaredDependency(doc) == Success(JStr(urls.archive))
  {
    if CiReady(env, repo, branch, info, urls) {
      DevVersionShape(repo, branch, info.committerDate, info.vcsRevision);
      ReadAfterWrite(env.manifest, urls.archive);
      CiTrace(env, repo, branch, info, urls);
    }
  }

  /** The CircleCI lookups succeed with this build and these URLs, both
      downloads answer 200, and the manifest can be rewritten. */
  predicate CiReady(env: Env, repo: string, branch: string, info: BuildInfo, urls: ArtifactSet) {
    && CiFound(env, repo, branch, info, urls)
    && urls.bundle in env.reachable && urls.schema in env.reachable
    && WithDependency(env.manifest, urls.archive).Success?
  }

  lemma {:induction false} CiTrace(env: Env, repo: string, branch: string, info: BuildInfo, urls: ArtifactSet)
    ensures CiReady(env, repo, branch, info, urls) ==>
      FromCi(env, repo, branch)
      == Then(Done([QueryBuilds(repo, branch),
                    QueryArtifacts(info.buildNum),
                    Print("url: " + urls.bundle),
                    Download(urls.bundle, BundleFile),
                    Download(urls.schema, SchemaFile),
                    WriteManifest(WithDependency(env.manifest, urls.archive).value),
                    WriteMarker(Marker.Text(DevVersion(repo, branch, info.committerDate, info.vcsRevision)))]),
              InstallJsDeps(env.root, env.hasNpm, env.skipNpm, None, env.files))
  {
    if !CiReady(env, repo, branch, info, urls) { return; }
    var version := DevVersion(repo, branch, info.committerDate, info.vcsRevision);
    var install := InstallJsDeps(env.root, env.hasNpm, env.skipNpm, None, env.files);
    var listed := [QueryBuilds(repo, branch), QueryArtifacts(info.buildNum)];
    var fetched := [Print("url: " + urls.bundle),
                    Download(urls.bundle, BundleFile),
                    Download(urls.schema, SchemaFile),
                    WriteManifest(WithDependency(env.manifest, urls.archive).value),
                    WriteMarker(Marker.Text(version))];
    assert FromCi(env, repo, branch) == Then(Done([QueryBuilds(repo, branch)] + [QueryArtifacts(info.buildNum)]),
                                             CiFetch(env, urls, version));
    CiFetchTrace(env, urls, version);
    ThenDone(listed, fetched, install);
    SevenSteps(listed[0], listed[1], fetched[0], fetched[1], fetched[2], fetched[3], fetched[4]);
  }

  lemma {:induction false} SevenSteps(a: Effect, b: Effect, c: Effect, d: Effect, e: Effect, f: Effect, g: Effect)
    ensures [a, b] + [c, d, e, f, g] == [a, b, c, d, e, f, g]
  {
  }

  /** Once the artifacts are found and reachable, the CI flow prints and
      fetches the bundle, fetches the schema, rewrites the manifest and the
      marker, then installs. */
  lemma {:induction false} CiFetchTrace(env: Env, urls: ArtifactSet, version: string)
    requires urls.bundle in env.reachable && urls.schema in env.reachable
    requires WithDependency(env.manifest, urls.archive).Success?
    ensures CiFetch(env, urls, version)
      == Then(Done([Print("url: " + urls.bundle),
                    Download(urls.bundle, BundleFile),
                    Download(urls.schema, SchemaFile),
                    WriteManifest(WithDependency(env.manifest, urls.archive).value),
                    WriteMarker(Marker.Text(version))]),
              InstallJsDeps(env.root, env.hasNpm, env.skipNpm, None, env.files))
  {
    var install := InstallJsDeps(env.root, env.hasNpm, env.skipNpm, None, env.files);
    var fetched := [Print("url: " + urls.bundle), Download(urls.bundle, BundleFile)];
    var schema := [Download(urls.schema, SchemaFile)];
    var written := [WriteManifest(WithDependency(env.manifest, urls.archive).value), WriteMarker(Marker.Text(version))];
    assert OverwriteBundle(env, urls.bundle) == Done(fetched);
    assert OverwriteSchema(env, urls.schema) == Done(schema);
    assert WriteMetadata(env, urls.archive, version, None) == Then(Done(written), install);
    ThenDone(schema, written, install);
    ThenDone(fetched, schema + written, install);
    assert fetched + (schema + written) == [fetched[0], fetched[1], schema[0], written[0], written[1]];
  }

  /** When no build or no artifact set can be found, the run fails before
      writing any file. */
  lemma {:induction false} CiLookupFailureWritesNothing(env: Env, repo: string, branch: string)
    requires LatestPublishBuild(env.builds(repo, branch)).Failure?
             || BundleSchemaUrls(env.artifacts(LatestPublishBuild(env.builds(repo, branch)).value.buildNum)).Failure?
    ensures FromCi(env, repo, branch).status.Raised?
    ensures Written(FromCi(env, repo, branch).effects) == {}
  {
    match LatestPublishBuild(env.builds(repo, branch))
    case Failure(_) =>
    case Success(info) =>
      var listed := [QueryBuilds(repo, branch), QueryArtifacts(info.buildNum)];
      WrittenFrom(listed, 1);
      WrittenFrom(listed, 0);
      assert listed[0..] == listed;
  }

  /** The two development sources never mix: a local update neither queries
      CircleCI nor downloads, and a CI update copies nothing. */
  lemma {:induction false} SourcesNeverMix(env: Env, local: string, repo: string, branch: string)
    ensures RemoteFree(FromLocal(env, local).effects)
    ensures CopyFree(FromCi(env, repo, branch).effects)
  {
    LocalNeverRemote(env, local);
    CiNeverCopies(env, repo, branch);
  }

  /** No effect in the trace contacts CircleCI or downloads. */
  predicate RemoteFree(effects: seq<Effect>) {
    forall e :: e in effects ==> !IsRemote(e)
  }

  /** No effect in the trace copies from a local checkout. */
  predicate CopyFree(effects: seq<Effect>) {
    forall e :: e in effects ==> !e.Copy?
  }

  lemma {:induction false} ThenFree(first: Run, second: Run)
    ensures RemoteFree(first.effects) && RemoteFree(second.effects) ==> RemoteFree(Then(first, second).effects)
    ensures CopyFree(first.effects) && CopyFree(second.effects) ==> CopyFree(Then(first, second).effects)
  {
  }

  /** Writing the metadata is neither a download nor a copy. */
  lemma {:induction false} MetadataLocalOnly(env: Env, archive: string, version: string, local: Option<string>)
    ensures RemoteFree(WriteMetadata(env, archive, version, local).effects)
    ensures CopyFree(WriteMetadata(env, archive, version, local).effects)
  {
    InstallLocalOnly(env, local);
    match WithDependency(env.manifest, archive)
    case Failure(_) =>
    case Success(doc) =>
      var install := InstallJsDeps(env.root, env.hasNpm, env.skipNpm, local, env.files);
      ThenFree(Done([WriteManifest(doc), WriteMarker(Marker.Text(version))]), install);
  }

  lemma {:induction false} LocalNeverRemote(env: Env, local: string)
    ensures RemoteFree(FromLocal(env, local).effects)
  {
    var paths := BundleSchemaLocal(local);
    var version := DevVersion(local, "", env.now, LocalRevision);
    var meta := WriteMetadata(env, paths.archive, version, Some(local));
    MetadataLocalOnly(env, paths.archive, version, Some(local));
    ThenFree(CopyLocal(env, paths.schema, SchemaFile), meta);
    ThenFree(CopyLocal(env, paths.bundle, BundleFile), Then(CopyLocal(env, paths.schema, SchemaFile), meta));
  }

  lemma {:induction false} CiNeverCopies(env: Env, repo: string, branch: string)
    ensures CopyFree(FromCi(env, repo, branch).effects)
  {
    match LatestPublishBuild(env.builds(repo, branch))
    case Failure(_) =>
    case Success(info) =>
      match BundleSchemaUrls(env.artifacts(info.buildNum))
      case Failure(_) =>
      case Success(urls) =>
        var version := DevVersion(repo, branch, info.committerDate, info.vcsRevision);
        CiFetchNoCopies(env, urls, version);
        ThenFree(Done([QueryBuilds(repo, branch), QueryArtifacts(info.buildNum)]), CiFetch(env, urls, version));
  }

  lemma {:induction false} CiFetchNoCopies(env: Env, urls: ArtifactSet, version: string)
    ensures CopyFree(CiFetch(env, urls, version).effects)
  {
    var meta := WriteMetadata(env, urls.archive, version, None);
    MetadataLocalOnly(env, urls.archive, version, None);
    ThenFree(OverwriteSchema(env, urls.schema), meta);
    ThenFree(OverwriteBundle(env, urls.bundle), Then(OverwriteSchema(env, urls.schema), meta));
  }

  /** Installing is neither a download nor a copy, and writes none of the
      managed files. */
  lemma {:induction false} InstallLocalOnly(env: Env, local: Option<string>)
    ensures forall e :: e in InstallJsDeps(env.root, env.hasNpm, env.skipNpm, local, env.files).effects ==>
      !IsRemote(e) && !e.Copy? && WrittenBy(e) == {}
  {
    InstallStepsOnly(env.root, env.hasNpm, env.skipNpm, local, env.files);
  }

  /** `doc` is `original` with only `dependencies["plotly.js"]` replaced,
      by the string `doc` itself now declares. */
  predicate IsDependencyRewrite(original: Json, doc: Json) {
    && DeclaredDependency(doc).Success?
    && DeclaredDependency(doc).value.JStr?
    && WithDependency(original, DeclaredDependency(doc).value.s) == Success(doc)
  }

  /** Every marker written has the generated shape, and every manifest
      written is a dependency rewrite of the manifest read. */
  predicate WritesWellFormed(env: Env, effects: seq<Effect>) {
    forall e :: e in effects ==>
      && (e.WriteMarker? ==> Marker.VersionOf(e.text).Some?)
      && (e.WriteManifest? ==> IsDependencyRewrite(env.manifest, e.doc))
  }

  /** Well-formed writes compose. */
  lemma {:induction false} ThenWrites(env: Env, first: Run, second: Run)
    requires WritesWellFormed(env, first.effects) && WritesWellFormed(env, second.effects)
    ensures WritesWellFormed(env, Then(first, second).effects)
  {
  }

  /** Fetching and copying write neither the marker nor the manifest. */
  lemma {:induction false} FetchWrites(env: Env, url: string, source: string, dest: Target)
    ensures WritesWellFormed(env, OverwriteBundle(env, url).effects)
    ensures WritesWellFormed(env, OverwriteSchema(env, url).effects)
    ensures WritesWellFormed(env, CopyLocal(env, source, dest).effects)
    ensures WritesWellFormed(env, RunCodegen().effects)
  {
  }

  /** Whatever the arguments and the environment, every marker file `main`
      writes has the generated shape, and every manifest it writes is the
      original with only `dependencies["plotly.js"]` replaced. */
  lemma {:induction false} MainWritesWellFormed(env: Env, argv: seq<string>)
    ensures WritesWellFormed(env, Main(env, argv).effects)
  {
    if |argv| != 2 || argv[1] == "codegen" {
    } else if argv[1] == "updateplotlyjsdev" {
      var first := UpdateSchemaBundleFromMaster(env, argv);
      match ParseDevArgs(argv)
      case Failure(_) =>
      case Success(args) =>
        if args.local.None? {
          CiWrites(env, args.repo, args.branch);
        } else {
          LocalWrites(env, args.local.value);
        }
      FetchWrites(env, "", "", BundleFile);
      ThenWrites(env, first, RunCodegen());
    } else if argv[1] == "updateplotlyjs" {
      match DeclaredVersion(env.manifest)
      case Failure(_) =>
      case Success(v) =>
        ReleasedWellFormed(env, v);
        ThenWrites(env, Done([Print(v)]), UpdatePlotlyJs(env, v));
    }
  }

  lemma {:induction false} ReleasedWellFormed(env: Env, v: string)
    ensures WritesWellFormed(env, UpdatePlotlyJs(env, v).effects)
  {
    Marker.VersionRoundTrip(v);
    FetchWrites(env, ReleaseBundleUrl(v), "", BundleFile);
    FetchWrites(env, ReleaseSchemaUrl(v), "", BundleFile);
    ThenWrites(env, OverwriteBundle(env, ReleaseBundleUrl(v)), Done([WriteMarker(Marker.Text(v))]));
    ThenWrites(env, OverwriteSchema(env, ReleaseSchemaUrl(v)), RunCodegen());
    ThenWrites(env, UpdateBundle(env, v), Then(OverwriteSchema(env, ReleaseSchemaUrl(v)), RunCodegen()));
  }

  lemma {:induction false} MetadataWrites(env: Env, archive: string, version: string, local: Option<string>)
    ensures WritesWellFormed(env, WriteMetadata(env, archive, version, local).effects)
  {
    match WithDependency(env.manifest, archive)
    case Failure(_) =>
    case Success(doc) =>
      var install := InstallJsDeps(env.root, env.hasNpm, env.skipNpm, local, env.files);
      var written := [WriteManifest(doc), WriteMarker(Marker.Text(version))];
      ReadAfterWrite(env.manifest, archive);
      Marker.VersionRoundTrip(version);
      assert WritesWellFormed(env, written) by {
        assert IsDependencyRewrite(env.manifest, doc);
        assert forall e :: e in written ==> e == written[0] || e == written[1];
      }
      InstallStepsOnly(env.root, env.hasNpm, env.skipNpm, local, env.files);
      assert WritesWellFormed(env, install.effects);
      ThenWrites(env, Done(written), install);
  }

  lemma {:induction false} CiWrites(env: Env, repo: string, branch: string)
    ensures WritesWellFormed(env, FromCi(env, repo, branch).effects)
  {
    match LatestPublishBuild(env.builds(repo, branch))
    case Failure(_) =>
    case Success(info) =>
      match BundleSchemaUrls(env.artifacts(info.buildNum))
      case Failure(_) =>
      case Success(urls) =>
        var version := DevVersion(repo, branch, info.committerDate, info.vcsRevision);
        CiFetchWrites(env, urls, version);
        ThenWrites(env, Done([QueryBuilds(repo, branch), QueryArtifacts(info.buildNum)]), CiFetch(env, urls, version));
  }

  lemma {:induction false} CiFetchWrites(env: Env, urls: ArtifactSet, version: string)
    ensures WritesWellFormed(env, CiFetch(env, urls, version).effects)
  {
    var meta := WriteMetadata(env, urls.archive, version, None);
    MetadataWrites(env, urls.archive, version, None);
    FetchWrites(env, urls.bundle, "", BundleFile);
    FetchWrites(env, urls.schema, "", BundleFile);
    ThenWrites(env, OverwriteSchema(env, urls.schema), meta);
    ThenWrites(env, OverwriteBundle(env, urls.bundle), Then(OverwriteSchema(env, urls.schema), meta));
  }

  lemma {:induction false} LocalWrites(env: Env, local: string)
    ensures WritesWellFormed(env, FromLocal(env, local).effects)
  {
    var paths := BundleSchemaLocal(local);
    var version := DevVersion(local, "", env.now, LocalRevision);
    var meta := WriteMetadata(env, paths.archive, version, Some(local));
    MetadataWrites(env, paths.archive, version, Some(local));
    FetchWrites(env, "", paths.bundle, BundleFile);
    FetchWrites(env, "", paths.schema, SchemaFile);
    ThenWrites(env, CopyLocal(env, paths.schema, SchemaFile), meta);
    ThenWrites(env, CopyLocal(env, paths.bundle, BundleFile), Then(CopyLocal(env, paths.schema, SchemaFile), meta));
  }

  /** The released update never writes the manifest: it reads the declared
      version and leaves js/package.json alone. */
  lemma {:induction false} ReleasedUpdateLeavesManifest(env: Env, argv: seq<string>)
    requires |argv| == 2 && argv[1] == "updateplotlyjs"
    ensures Written(Main(env, argv).effects) <= {BundleFile, MarkerFile, SchemaFile}
  {
    var allowed := {BundleFile, MarkerFile, SchemaFile};
    match DeclaredVersion(env.manifest)
    case Failure(_) =>
    case Success(v) =>
      var bundle := OverwriteBundle(env, ReleaseBundleUrl(v));
      var marker := Done([WriteMarker(Marker.Text(v))]);
      var schema := OverwriteSchema(env, ReleaseSchemaUrl(v));
      assert WritesWithin(bundle.effects, allowed);
      assert WritesWithin(marker.effects, allowed);
      assert WritesWithin(schema.effects, allowed);
      assert WritesWithin(RunCodegen().effects, allowed);
      ThenWithin(bundle, marker, allowed);
      ThenWithin(schema, RunCodegen(), allowed);
      ThenWithin(UpdateBundle(env, v), Then(schema, RunCodegen()), allowed);
      ThenWithin(Done([Print(v)]), UpdatePlotlyJs(env, v), allowed);
      WrittenWithin(Main(env, argv).effects, allowed);
  }

  /** Every effect of the trace writes only targets in `allowed`. */
  predicate WritesWithin(effects: seq<Effect>, allowed: set<Target>) {
    forall e :: e in effects ==> WrittenBy(e) <= allowed
  }

  lemma {:induction false} ThenWithin(first: Run, second: Run, allowed: set<Target>)
    requires WritesWithin(first.effects, allowed) && WritesWithin(second.effects, allowed)
    ensures WritesWithin(Then(first, second).effects, allowed)
  {
  }

  lemma {:induction false} WrittenWithin(effects: seq<Effect>, allowed: set<Target>)
    requires WritesWithin(effects, allowed)
    ensures Written(effects) <= allowed
  {
    if |effects| > 0 {
      assert effects[0] in effects;
      assert WritesWithin(effects[1..], allowed) by {
        forall e | e in effects[1..] ensures WrittenBy(e) <= allowed {
          assert e in effects;
        }
      }
      WrittenWithin(effects[1..], allowed);
    }
  }

  /** When the released bundle cannot be fetched, the version and the URL
      are printed and the run stops: no file is written, no schema is
      fetched and code generation never runs. */
  lemma {:induction false} ReleasedBundleFailure(env: Env, argv: seq<string>, v: string)
    requires |argv| == 2 && argv[1] == "updateplotlyjs"
    requires DeclaredVersion(env.manifest) == Success(v)
    requires ReleaseBundleUrl(v) !in env.reachable
    ensures Main(env, argv)
      == Run([Print(v), Print("url: " + ReleaseBundleUrl(v))], Raised(FetchFailed(ReleaseBundleUrl(v))))
  {
    ReleasedDispatch(env, argv, v);
  }

  /** A manifest whose plotly.js version cannot be read stops the released
      update before anything is printed or written. */
  lemma {:induction false} ManifestUnreadable(env: Env, argv: seq<string>)
    requires |argv| == 2 && argv[1] == "updateplotlyjs"
    requires DeclaredVersion(env.manifest).Failure?
    ensures Main(env, argv) == Raise([], DeclaredVersion(env.manifest).error)
  {
  }

  /** A flag given without a value stops the development update before it
      does anything. */
  lemma {:induction false} DevArgsFailure(env: Env, argv: seq<string>)
    requires ParseDevArgs(argv).Failure?
    ensures UpdateSchemaBundleFromMaster(env, argv) == Raise([], ParseDevArgs(argv).error)
    ensures UpdatePlotlyJsDev(env, argv) == Raise([], ParseDevArgs(argv).error)
  {
  }

  /** A missing local bundle stops the local update before anything is
      copied; a missing local schema stops it after the bundle copy. */
  lemma {:induction false} LocalCopyFailure(env: Env, local: string)
    ensures var paths := BundleSchemaLocal(local);
      paths.bundle !in env.files ==> FromLocal(env, local) == Raise([], SourceMissing(paths.bundle))
    ensures var paths := BundleSchemaLocal(local);
      paths.bundle in env.files && paths.schema !in env.files ==>
        FromLocal(env, local) == Raise([Copy(paths.bundle, BundleFile)], SourceMissing(paths.schema))
  {
  }

  /** A manifest without a `dependencies` object stops the metadata step
      before the manifest or the marker is written and before installing. */
  lemma {:induction false} MetadataFailure(env: Env, archive: string, version: string, local: Option<string>)
    requires WithDependency(env.manifest, archive).Failure?
    ensures WriteMetadata(env, archive, version, local) == Raise([], WithDependency(env.manifest, archive).error)
  {
  }

  /** Once the artifacts are found, a failed bundle download stops after
      printing its URL, and a failed schema download stops after the bundle
      is written; neither rewrites the manifest or the marker. */
  lemma {:induction false} CiFetchFailure(env: Env, urls: ArtifactSet, version: string)
    ensures urls.bundle !in env.reachable ==>
      CiFetch(env, urls, version) == Run([Print("url: " + urls.bundle)], Raised(FetchFailed(urls.bundle)))
    ensures urls.bundle in env.reachable && urls.schema !in env.reachable ==>
      CiFetch(env, urls, version)
        == Run([Print("url: " + urls.bundle), Download(urls.bundle, BundleFile)], Raised(FetchFailed(urls.schema)))
    ensures urls.bundle !in env.reachable || urls.schema !in env.reachable ==>
      Written(CiFetch(env, urls, version).effects) <= {BundleFile}
  {
    var shown := "url: " + urls.bundle;
    WrittenCons(Print(shown), []);
    WrittenCons(Download(urls.bundle, BundleFile), []);
    WrittenCons(Print(shown), [Download(urls.bundle, BundleFile)]);
  }

  /** The two CircleCI queries write nothing. */
  lemma {:induction false} QueriesWriteNothing(repo: string, branch: string, n: int)
    ensures Written([QueryBuilds(repo, branch), QueryArtifacts(n)]) == {}
  {
    WrittenCons(QueryArtifacts(n), []);
    WrittenCons(QueryBuilds(repo, branch), [QueryArtifacts(n)]);
  }

  /** In the whole CI flow, a failed download of the bundle or the schema
      raises after the two queries, and the manifest and the marker stay
      untouched. */
  lemma {:induction false} CiDownloadFailure(env: Env, repo: string, branch: string, info: BuildInfo, urls: ArtifactSet)
    ensures CiFound(env, repo, branch, info, urls) ==>
      && |FromCi(env, repo, branch).effects| >= 2
      && FromCi(env, repo, branch).effects[..2] == [QueryBuilds(repo, branch), QueryArtifacts(info.buildNum)]
    ensures CiFound(env, repo, branch, info, urls) && (urls.bundle !in env.reachable || urls.schema !in env.reachable) ==>
      && FromCi(env, repo, branch).status
           == Raised(FetchFailed(if urls.bundle !in env.reachable then urls.bundle else urls.schema))
      && Written(FromCi(env, repo, branch).effects) <= {BundleFile}
  {
    if CiFound(env, repo, branch, info, urls) {
      var version := DevVersion(repo, branch, info.committerDate, info.vcsRevision);
      var listed := [QueryBuilds(repo, branch), QueryArtifacts(info.buildNum)];
      var fetch := CiFetch(env, urls, version);
      assert FromCi(env, repo, branch) == Then(Done(listed), fetch);
      CiFetchFailure(env, urls, version);
      assert (listed + fetch.effects)[..2] == listed;
      WrittenConcat(listed, fetch.effects);
      QueriesWriteNothing(repo, branch, info.buildNum);
    }
  }

  /** Both CircleCI lookups succeed, with this build and these URLs. */
  predicate CiFound(env: Env, repo: string, branch: string, info: BuildInfo, urls: ArtifactSet) {
    && LatestPublishBuild(env.builds(repo, branch)) == Success(info)
    && BundleSchemaUrls(env.artifacts(info.buildNum)) == Success(urls)
  }

  /** For any argument list whose flags parse, the presence of `--local`
      alone picks the source: with it the update copies from the named
      checkout and never reaches the network; without it the update takes
      CircleCI's build for the given (or default) repo and branch and copies
      nothing. */
  lemma {:induction false} LocalFlagChoosesSource(env: Env, argv: seq<string>)
    requires ParseDevArgs(argv).Success?
    ensures LocalFlag !in argv ==>
      UpdateSchemaBundleFromMaster(env, argv)
        == FromCi(env, FlagArg(argv, DevRepoFlag).value.GetOr(DefaultRepo),
                       FlagArg(argv, DevBranchFlag).value.GetOr(DefaultBranch))
    ensures LocalFlag in argv ==>
      && FlagArg(argv, LocalFlag).value.Some?
      && UpdateSchemaBundleFromMaster(env, argv) == FromLocal(env, FlagArg(argv, LocalFlag).value.value)
    ensures LocalFlag !in argv ==> CopyFree(UpdateSchemaBundleFromMaster(env, argv).effects)
    ensures LocalFlag in argv ==> RemoteFree(UpdateSchemaBundleFromMaster(env, argv).effects)
  {
    var args := ParseDevArgs(argv).value;
    if args.local.None? {
      CiNeverCopies(env, args.repo, args.branch);
    } else {
      LocalNeverRemote(env, args.local.value);
    }
  }
}

=== FILE: seqs.dfy ===
/** Filter-then-first-match over lists, the selection rule the CI lookups
    and `list.index` share: keep the elements satisfying a predicate, in list
    order, and take the first one. */
module Seqs {
  import opened Wrappers

  /** The elements of `s` satisfying `p`, in their original order
      (a Python list comprehension with an `if` clause). */
  function Filter<T>(s: seq<T>, p: T -> bool): (r: seq<T>)
    ensures |r| <= |s|
    ensures forall i :: 0 <= i < |r| ==> p(r[i]) && r[i] in s
    ensures forall i :: 0 <= i < |s| && p(s[i]) ==> s[i] in r
  {
    if |s| == 0 then []
    else if p(s[0]) then [s[0]] + Filter(s[1..], p)
    else Filter(s[1..], p)
  }

  /** The position of the first element of `s` satisfying `p`, if any. */
  function FirstIndex<T>(s: seq<T>, p: T -> bool): (r: Option<nat>)
    ensures r.Some? ==> r.value < |s| && p(s[r.value])
    ensures r.Some? ==> forall j :: 0 <= j < r.value ==> !p(s[j])
    ensures r.None? <==> forall j :: 0 <= j < |s| ==> !p(s[j])
  {
    if |s| == 0 then None
    else if p(s[0]) then Some(0)
    else match FirstIndex(s[1..], p)
      case None => None
      case Some(k) => Some(k + 1)
  }

  /** Python's `s.index(x)`: the position of the first occurrence of `x`. */
  function IndexOf<T(==)>(s: seq<T>, x: T): (r: Option<nat>)
    ensures r.Some? ==> r.value < |s| && s[r.value] == x
    ensures r.Some? ==> forall j :: 0 <= j < r.value ==> s[j] != x
    ensures r.None? <==> x !in s
  {
    FirstIndex(s, y => y == x)
  }

  /** Taking element 0 of the filtered list is taking the first matching
      element of the original list, and the filtered list is empty exactly
      when nothing matches. */
  lemma {:induction false} FilterHeadIsFirstMatch<T>(s: seq<T>, p: T -> bool)
    ensures |Filter(s, p)| == 0 <==> FirstIndex(s, p).None?
    ensures FirstIndex(s, p).Some? ==> Filter(s, p)[0] == s[FirstIndex(s, p).value]
  {
    if |s| == 0 {
    } else if p(s[0]) {
    } else {
      FilterHeadIsFirstMatch(s[1..], p);
      assert Filter(s, p) == Filter(s[1..], p);
      match FirstIndex(s[1..], p)
      case None =>
      case Some(k) =>
        assert s[k + 1] == s[1..][k];
    }
  }

  /** Restated with an explicit index: if position `i` is the first match,
      the head of the filtered list is `s[i]`. */
  lemma {:induction false} FilterHeadAt<T>(s: seq<T>, p: T -> bool, i: nat)
    requires i < |s| && p(s[i])
    requires forall j :: 0 <= j < i ==> !p(s[j])
    ensures |Filter(s, p)| > 0 && Filter(s, p)[0] == s[i]
  {
    FilterHeadIsFirstMatch(s, p);
    assert FirstIndex(s, p).Some?;
  }
}

=== FILE: strings.dfy ===
/** The few string operations the build helper relies on: `str.replace(c, "")`,
    slicing `s[:n]`, `sep.join(parts)`, and POSIX `os.path.join`. `Split` is
    not used by the helper itself; it is the inverse that the join properties
    are stated against. */
module Strings {

  /** `s.replace(c, "")` for a one-character `c`: every occurrence of `c`
      is deleted, wherever it appears. */
  function StripAll(s: string, c: char): (r: string)
    ensures c !in r
    ensures |r| <= |s|
    ensures c !in s ==> r == s
  {
    if |s| == 0 then ""
    else (if s[0] == c then "" else [s[0]]) + StripAll(s[1..], c)
  }

  /** Deleting a character distributes over concatenation: the characters
      that are kept stay in their original order. */
  lemma {:induction false} StripAllConcat(a: string, b: string, c: char)
    ensures StripAll(a + b, c) == StripAll(a, c) + StripAll(b, c)
  {
    if |a| == 0 {
      assert a + b == b;
    } else {
      var head := if a[0] == c then "" else [a[0]];
      assert (a + b)[1..] == a[1..] + b;
      StripAllConcat(a[1..], b, c);
      assert head + (StripAll(a[1..], c) + StripAll(b, c)) == (head + StripAll(a[1..], c)) + StripAll(b, c);
    }
  }

  /** The kept characters are exactly those of `s` other than `c`, with
      their multiplicities. */
  lemma {:induction false} StripAllContents(s: string, c: char)
    ensures multiset(StripAll(s, c)) == multiset(s)[c := 0]
  {
    if |s| == 0 {
    } else {
      StripAllContents(s[1..], c);
      assert s == [s[0]] + s[1..];
      assert multiset(s) == multiset{s[0]} + multiset(s[1..]);
    }
  }

  /** Stripping twice is stripping once. */
  lemma {:induction false} StripAllIdempotent(s: string, c: char)
    ensures StripAll(StripAll(s, c), c) == StripAll(s, c)
  {
  }

  function Min(a: int, b: int): int {
    if a <= b then a else b
  }

  /** Python's `s[:n]` for `n >= 0`: the first `n` characters, or all of `s`
      when it is shorter. */
  function Prefix(s: string, n: nat): (r: string)
    ensures |r| == Min(n, |s|)
    ensures r <= s
  {
    if |s| <= n then s else s[..n]
  }

  /** Python's `sep.join(parts)`. */
  function Join(sep: string, parts: seq<string>): (r: string)
    ensures |parts| == 1 ==> r == parts[0]
  {
    if |parts| == 0 then ""
    else if |parts| == 1 then parts[0]
    else parts[0] + sep + Join(sep, parts[1..])
  }

  /** `s.split(c)` for a one-character separator: the pieces between
      occurrences of `c`. There is always at least one piece. */
  function Split(s: string, c: char): (r: seq<string>)
    ensures |r| >= 1
  {
    if |s| == 0 then [""]
    else if s[0] == c then [""] + Split(s[1..], c)
    else
      var rest := Split(s[1..], c);
      [[s[0]] + rest[0]] + rest[1..]
  }

  /** A piece free of the separator, followed by the separator, splits off
      as one piece. */
  lemma {:induction false} SplitPiece(p: string, c: char, rest: string)
    requires c !in p
    ensures Split(p + [c] + rest, c) == [p] + Split(rest, c)
  {
    if |p| == 0 {
      assert p + [c] + rest == [c] + rest;
      assert ([c] + rest)[1..] == rest;
    } else {
      var s := p + [c] + rest;
      assert s[0] == p[0];
      assert s[1..] == p[1..] + [c] + rest;
      SplitPiece(p[1..], c, rest);
      assert [p[0]] + p[1..] == p;
    }
  }

  /** A string free of the separator is a single piece. */
  lemma {:induction false} SplitWhole(p: string, c: char)
    requires c !in p
    ensures Split(p, c) == [p]
  {
    if |p| == 0 {
    } else {
      SplitWhole(p[1..], c);
      assert [p[0]] + p[1..] == p;
    }
  }

  /** Splitting undoes joining when no part contains the separator. */
  lemma {:induction false} SplitJoin(parts: seq<string>, c: char)
    requires |parts| >= 1
    requires forall i :: 0 <= i < |parts| ==> c !in parts[i]
    ensures Split(Join([c], parts), c) == parts
  {
    if |parts| == 1 {
      SplitWhole(parts[0], c);
    } else {
      SplitJoin(parts[1..], c);
      SplitPiece(parts[0], c, Join([c], parts[1..]));
      assert [parts[0]] + parts[1..] == parts;
    }
  }

  predicate EndsWith(s: string, suffix: string) {
    |suffix| <= |s| && s[|s| - |suffix|..] == suffix
  }

  /** POSIX `os.path.join(a, b)` for two components: an absolute `b`
      replaces `a`; otherwise a `/` is inserted unless `a` is empty or
      already ends with one. */
  function PathJoin(a: string, b: string): string {
    if |b| > 0 && b[0] == '/' then b
    else if |a| == 0 || a[|a| - 1] == '/' then a + b
    else a + "/" + b
  }

  /** Whatever the directory, the joined path ends with the name joined. */
  lemma {:induction false} PathJoinEndsWith(a: string, b: string)
    ensures EndsWith(PathJoin(a, b), b)
  {
    var r := PathJoin(a, b);
    if !(|b| > 0 && b[0] == '/') {
      assert r == (r[..|r| - |b|]) + b;
    }
  }

  /** The common case: a non-empty directory without a trailing slash and a
      relative name are joined by exactly one `/`. */
  lemma {:induction false} PathJoinPlain(a: string, b: string)
    requires |a| > 0 && a[|a| - 1] != '/'
    requires |b| > 0 && b[0] != '/'
    ensures PathJoin(a, b) == a + "/" + b
    ensures PathJoin(a, b)[..|a|] == a
  {
  }
}

=== FILE: trace.dfy ===
/** What a run of the build helper does to the outside world, as a trace of
    effects, and how it ends. Effects are recorded rather than performed:
    the network, the file system and subprocesses are outside the model. */
module Trace {
  import opened Json
  import opened Strings

  /** The fixed files under the project root the helper reads or writes. */
  datatype Target =
    | SchemaFile       // codegen/resources/plot-schema.json
    | BundleFile       // plotly/package_data/plotly.min.js
    | MarkerFile       // plotly/offline/_plotlyjs_version.py
    | ManifestFile     // js/package.json
    | NodeModules      // js/node_modules
    | WidgetBundle     // plotly/package_data/widgetbundle.js, produced by the npm build

  /** os.path.join(root, d1, d2, name) and os.path.join(root, d, name). */
  function Join3(root: string, d1: string, d2: string, name: string): string {
    PathJoin(PathJoin(PathJoin(root, d1), d2), name)
  }

  function Join2(root: string, d: string, name: string): string {
    PathJoin(PathJoin(root, d), name)
  }

  /** Where each managed file lives under the project root. */
  function TargetPath(root: string, t: Target): string {
    match t
    case SchemaFile => Join3(root, "codegen", "resources", "plot-schema.json")
    case BundleFile => Join3(root, "plotly", "package_data", "plotly.min.js")
    case MarkerFile => Join3(root, "plotly", "offline", "_plotlyjs_version.py")
    case ManifestFile => Join2(root, "js", "package.json")
    case NodeModules => Join2(root, "js", "node_modules")
    case WidgetBundle => Join3(root, "plotly", "package_data", "widgetbundle.js")
  }

  /** The failures the helper can raise, named after the situation that
      raises them. None of them is caught. */
  datatype Error =
    | FlagWithoutValue(flag: string)  // IndexError: the flag is the last argument
    | NoPublishBuild                  // IndexError: no successful publish-dist build
    | MissingArtifact(path: string)   // IndexError: no artifact with this path
    | MissingKey(key: string)         // KeyError
    | WrongShape(what: string)        // TypeError/AttributeError: `what` has the wrong JSON kind
    | FetchFailed(url: string)        // AssertionError: the GET did not answer 200
    | SourceMissing(path: string)     // FileNotFoundError from shutil.copyfile
    | BuildOutputMissing(message: string) // ValueError("Missing file: ...") after the npm steps

  datatype Effect =
    | Print(line: string)                       // a line on standard output
    | PrintError(line: string)                  // a line on standard error
    | QueryBuilds(repo: string, branch: string) // CircleCI: completed builds of a branch
    | QueryArtifacts(buildNum: int)             // CircleCI: artifacts of one build
    | Download(url: string, dest: Target)       // the 200 body from `url` overwrites `dest`
    | Copy(source: string, dest: Target)        // shutil.copyfile(source, dest)
    | WriteManifest(doc: Json)                  // js/package.json rewritten with `doc`
    | WriteMarker(text: string)                 // the version-marker file rewritten with `text`
    | ProbeNpm                                  // `npm --version`
    | Npm(args: seq<string>)                    // `npm <args>` in js/
    | Touch(dest: Target)                       // os.utime(dest, None)
    | Codegen                                   // codegen.perform_codegen()

  datatype Status =
    | Completed
    | Exited(code: int)
    | Raised(error: Error)

  /** The effects performed, in order, and how the run ended. A run that
      raised keeps the effects it performed before raising: nothing is
      rolled back. */
  datatype Run = Run(effects: seq<Effect>, status: Status)

  function Done(effects: seq<Effect>): Run {
    Run(effects, Completed)
  }

  function Raise(effects: seq<Effect>, e: Error): Run {
    Run(effects, Raised(e))
  }

  /** Sequential composition: `second` runs only if `first` completed. */
  function Then(first: Run, second: Run): (r: Run)
    ensures first.status == Completed ==> r.status == second.status
    ensures first.status != Completed ==> r == first
    ensures first.effects <= r.effects
    ensures forall e :: e in r.effects ==> e in first.effects || e in second.effects
  {
    if first.status == Completed then Run(first.effects + second.effects, second.status)
    else first
  }

  /** Two completed steps followed by a run are one completed step followed
      by that run. */
  lemma {:induction false} ThenDone(a: seq<Effect>, b: seq<Effect>, rest: Run)
    ensures Then(Done(a), Then(Done(b), rest)) == Then(Done(a + b), rest)
  {
    assert a + (b + rest.effects) == (a + b) + rest.effects;
  }

  /** The target whose contents an effect replaces, if any. */
  function WrittenBy(e: Effect): set<Target> {
    match e
    case Download(_, dest) => {dest}
    case Copy(_, dest) => {dest}
    case WriteManifest(_) => {ManifestFile}
    case WriteMarker(_) => {MarkerFile}
    case _ => {}
  }

  /** Every target whose contents a trace replaces. */
  function Written(effects: seq<Effect>): (r: set<Target>)
    ensures forall i :: 0 <= i < |effects| ==> WrittenBy(effects[i]) <= r
  {
    if |effects| == 0 then {}
    else WrittenBy(effects[0]) + Written(effects[1..])
  }

  /** Peeling the first effect off a trace. */
  lemma {:induction false} WrittenCons(e: Effect, rest: seq<Effect>)
    ensures Written([e] + rest) == WrittenBy(e) + Written(rest)
  {
    assert ([e] + rest)[0] == e;
    assert ([e] + rest)[1..] == rest;
  }

  /** Peeling one effect off a suffix of a trace. */
  lemma {:induction false} WrittenFrom(effects: seq<Effect>, i: nat)
    requires i < |effects|
    ensures Written(effects[i..]) == WrittenBy(effects[i]) + Written(effects[i + 1..])
  {
    assert effects[i..][1..] == effects[i + 1..];
  }

  lemma {:induction false} WrittenConcat(a: seq<Effect>, b: seq<Effect>)
    ensures Written(a + b) == Written(a) + Written(b)
  {
    if |a| == 0 {
      assert a + b == b;
    } else {
      assert (a + b)[1..] == a[1..] + b;
      WrittenConcat(a[1..], b);
    }
  }
}

=== FILE: version.dfy ===
/** The version strings written into the marker file. A release is named by
    its declared semantic version; a development build by
    repo, branch, the first ten characters of the commit date and the first
    eight of the revision, joined by underscores. */
module Version {
  import opened Strings

  const DateWidth := 10
  const RevWidth := 8

  /** The revision recorded for a build taken from a local directory. */
  const LocalRevision := "local"

  /** The development version string of a build. */
  function DevVersion(repo: string, branch: string, date: string, rev: string): string {
    Join("_", [repo, branch, Prefix(date, DateWidth), Prefix(rev, RevWidth)])
  }

  /** The version is the four components separated by underscores, the date
      cut to at most ten characters and the revision to at most eight. */
  lemma {:induction false} DevVersionShape(repo: string, branch: string, date: string, rev: string)
    ensures DevVersion(repo, branch, date, rev)
      == repo + "_" + branch + "_" + Prefix(date, DateWidth) + "_" + Prefix(rev, RevWidth)
    ensures |DevVersion(repo, branch, date, rev)|
      == |repo| + |branch| + Min(DateWidth, |date|) + Min(RevWidth, |rev|) + 3
  {
    var parts := [repo, branch, Prefix(date, DateWidth), Prefix(rev, RevWidth)];
    assert Join("_", parts[2..]) == Prefix(date, DateWidth) + "_" + Prefix(rev, RevWidth) by {
      assert parts[2..][1..] == [Prefix(rev, RevWidth)];
    }
    assert Join("_", parts[1..]) == branch + "_" + Join("_", parts[2..]) by {
      assert parts[1..][1..] == parts[2..];
    }
  }

  /** When no component holds an underscore, the version string can be taken
      apart again into repo, branch, date prefix and revision prefix. */
  lemma {:induction false} DevVersionSplits(repo: string, branch: string, date: string, rev: string)
    requires '_' !in repo && '_' !in branch && '_' !in date && '_' !in rev
    ensures Split(DevVersion(repo, branch, date, rev), '_')
      == [repo, branch, Prefix(date, DateWidth), Prefix(rev, RevWidth)]
  {
    var parts := [repo, branch, Prefix(date, DateWidth), Prefix(rev, RevWidth)];
    assert Prefix(date, DateWidth) <= date && Prefix(rev, RevWidth) <= rev;
    SplitJoin(parts, '_');
  }

  /** A local build is named after the local path, with an empty branch and
      the revision "local": `<local>__<date[:10]>_local`. */
  lemma {:induction false} LocalVersion(local: string, now: string)
    ensures DevVersion(local, "", now, LocalRevision) == local + "__" + Prefix(now, DateWidth) + "_local"
  {
    DevVersionShape(local, "", now, LocalRevision);
  }
}

=== FILE: wrappers.dfy ===
/** Failure-compatible wrappers used throughout the model: `Option` for a value
    that may be absent (a JSON key that is not there, a flag that was not given)
    and `Result` for a computation that may raise. */
module Wrappers {

  datatype Option<+T> = None | Some(value: T) {

    /** The wrapped value, or `default` when there is none (Python's
        `d.get(key, default)` shape). */
    function GetOr(default: T): T {
      match this
      case Some(v) => v
      case None => default
    }
  }

  /** The outcome of a step that either produces a value or raises an error. */
  datatype Result<+R, +E> = Success(value: R) | Failure(error: E) {

    predicate IsFailure() {
      Failure?
    }

    function PropagateFailure<U>(): Result<U, E>
      requires Failure?
    {
      Failure(error)
    }

    function Extract(): R
      requires Success?
    {
      value
    }
  }
}
